=== FILE: README.md ===
# Imixs-Workflow item collections and rule plugins, modelled in Dafny

This project models the part of Imixs-Workflow that works on work items.

- **ItemCollection** is the attribute container of every work item. It maps case-insensitive item names to ordered lists of values. On every write it lower-cases the name. A null or non-serialisable value removes the item. A single value is wrapped in a one-element list, nulls are stripped from lists, and an append concatenates onto the existing list. Its typed readers never throw and fall back to fixed defaults. It also keeps file attachments in the `$file` item.
- **SplitAndJoinPlugin** does three things:
  - it creates sub-process work items from `subprocess_create` directives;
  - it updates matching sub-processes from `subprocess_update` directives;
  - it updates the origin work item from an `origin_update` directive.

  Items are copied with the `copyItemList` mini-language: a comma list of names, where `a|b` copies item `a` into item `b`. Each origin keeps links to its sub-processes in `txtworkitemref`, through the de-duplicating `addWorkitemRef`.
- **ApplicationPlugin.run** copies seven settings from the next task of the model into the work item: status, group, editor, image, type, abstract and summary. It does nothing for a follow-up event, and it returns a warning when the next task is missing.
- **EntityRestService** contributes three pieces:
  - the comma tokenizer `getItemList`;
  - the error annotation `addErrorMessage`;
  - the merge and clean-up step of `putEntity`, with its response choice.

## How the model is organised

| module | file | contents |
|---|---|---|
| `Wrappers` | wrappers.dfy | `Option`, `Result` (Java exceptions as `Throws(error)`), `Outcome` |
| `Text` | text.dfy | `String.toLowerCase`, `trim`, `indexOf`, `lastIndexOf`; `java.util.StringTokenizer` as a class over an index |
| `Numbers` | numbers.dfy | Java `int`/`long` ranges, `Integer.toString`, `Integer.parseInt`, `Long.parseLong`, the saturating double-to-int cast |
| `Values` | values.dfy | the `Value` datatype (string, int, long, boolean, date, file map, non-serialisable object, null) and the normalisation of a written value |
| `Items` | items.dfy | the contents of an ItemCollection as a value (`map<string, seq<Value>>`): reads, writes, typed readers, `clone`, attachments |
| `ItemCollections` | item_collection.dfy | the `ItemCollection` class: a `hash` field and methods that update it, each proved to equal the `Items` function |
| `Plugins` | plugins.dfy | plugin status codes and the kernel's item names |
| `SplitAndJoin` | split_and_join.dfy | the plugin's directives as functions over `Items`, and its methods proved against them |
| `Application` | application_plugin.dfy | the plugin as a class with its seven fields, and `run` proved against `RunResult` |
| `EntityRest` | entity_rest_service.dfy | `getItemList`, `addErrorMessage`, the merge and clean-up step and response of `putEntity` |

The collaborators the source calls are parameters:

- the workflow service: `parseItemStructure`, `processWorkItem`, `getWorkListByRef`, `getWorkItem`;
- the regular-expression match of model version and process id;
- the model's `getProcessEntity`, modelled as a map from (process id, model version) to a task;
- `replaceDynamicValues`;
- the entity service's `load` and `save`.

Every method that changes state has an `ensures` that gives its new state as a function of the old state. The properties the source promises are then proved about those functions.

Paths in the table below are relative to the repository root. The files are abbreviated as follows:

- IC: `imixs-workflow-core/src/main/java/org/imixs/workflow/ItemCollection.java`;
- SJ: `imixs-workflow-engine/src/main/java/org/imixs/workflow/plugins/jee/SplitAndJoinPlugin.java`;
- AP: `imixs-workflow-engine/src/main/java/org/imixs/workflow/plugins/ApplicationPlugin.java`;
- ER: `imixs-workflow-jax-rs/src/main/java/org/imixs/workflow/jaxrs/EntityRestService.java`.

The table itself spells every path out.

## Model

| member | source | states |
|---|---|---|
| Text.Lower | imixs-workflow-core/src/main/java/org/imixs/workflow/ItemCollection.java:606 | lower-casing keeps the length, maps every character by `LowerChar`, and gives a lower-case string |
| Text.LowerIdempotent | imixs-workflow-core/src/main/java/org/imixs/workflow/ItemCollection.java:147 | lower-casing twice is lower-casing once, so a stored key reads back under itself |
| Text.Trim | imixs-workflow-engine/src/main/java/org/imixs/workflow/plugins/jee/SplitAndJoinPlugin.java:389 | the trimmed text neither starts nor ends with a character at or below U+0020, and it is empty exactly when the text is blank |
| Text.TrimUntrimmed | imixs-workflow-engine/src/main/java/org/imixs/workflow/plugins/jee/SplitAndJoinPlugin.java:389 | text without such characters at either end is its own trim |
| Text.IndexOf | imixs-workflow-engine/src/main/java/org/imixs/workflow/plugins/jee/SplitAndJoinPlugin.java:391 | None (-1) exactly when the character is absent; otherwise its first position |
| Text.LastIndexOf | imixs-workflow-core/src/main/java/org/imixs/workflow/ItemCollection.java:717 | None when the character is absent; otherwise a position holding it with none after it |
| Text.AfterLast | imixs-workflow-core/src/main/java/org/imixs/workflow/ItemCollection.java:716-719 | `substring(lastIndexOf(c) + 1)` is the suffix after the last `c`: it holds no `c`, and it is the whole text when there is no `c` |
| Text.Tokens | imixs-workflow-engine/src/main/java/org/imixs/workflow/plugins/jee/SplitAndJoinPlugin.java:388-390 | the tokens of a StringTokenizer are non-empty and hold no delimiter |
| Text.TokensOfJoin | imixs-workflow-engine/src/main/java/org/imixs/workflow/plugins/jee/SplitAndJoinPlugin.java:388-390 | splitting the join of non-empty, delimiter-free tokens gives those tokens back |
| Text.ConcatTokens | imixs-workflow-engine/src/main/java/org/imixs/workflow/plugins/jee/SplitAndJoinPlugin.java:388-390 | the tokens hold exactly the text's characters other than the delimiter, in order |
| Text.TokensOfDelimiters | imixs-workflow-jax-rs/src/main/java/org/imixs/workflow/jaxrs/EntityRestService.java:404-406 | a text of delimiters only has no token |
| Text.TokensFromSuffix | imixs-workflow-jax-rs/src/main/java/org/imixs/workflow/jaxrs/EntityRestService.java:404-406 | reading tokens in place from an index gives the tokens of the suffix from that index |
| Text.StringTokenizer.constructor | imixs-workflow-jax-rs/src/main/java/org/imixs/workflow/jaxrs/EntityRestService.java:404 | a new tokenizer has all tokens of its text still to hand out |
| Text.StringTokenizer.HasMoreTokens | imixs-workflow-jax-rs/src/main/java/org/imixs/workflow/jaxrs/EntityRestService.java:405 | true exactly when a token remains |
| Text.StringTokenizer.NextToken | imixs-workflow-jax-rs/src/main/java/org/imixs/workflow/jaxrs/EntityRestService.java:406 | returns the first remaining token, drops it from the remaining ones, and advances the position |
| Numbers.IntToString | imixs-workflow-core/src/main/java/org/imixs/workflow/ItemCollection.java:188 | the rendering of an int is non-empty, starts with '-' exactly for negative values, and ends in a digit |
| Numbers.ParseOfIntToString | imixs-workflow-core/src/main/java/org/imixs/workflow/ItemCollection.java:212-213 | parsing the decimal rendering of any integer gives the integer back |
| Numbers.SaturateInt | imixs-workflow-core/src/main/java/org/imixs/workflow/ItemCollection.java:213 | Java's double-to-int conversion is the identity in range and clamps to MIN_VALUE/MAX_VALUE outside it |
| Numbers.ParseIntOfIntToString | imixs-workflow-core/src/main/java/org/imixs/workflow/ItemCollection.java:212-213 | an int's text survives `Integer.parseInt`, `Long.parseLong` and `new Double(s).intValue()` |
| Numbers.ParseLongOfIntToString | imixs-workflow-core/src/main/java/org/imixs/workflow/ItemCollection.java:240-241 | a long's text survives `Long.parseLong`; through a double it saturates to the int range |
| Numbers.NotANumber | imixs-workflow-core/src/main/java/org/imixs/workflow/ItemCollection.java:214-215 | text that starts with neither a sign nor a digit, and has no blank at either end, is a number for none of the model's integer-literal parsers (`parseInt`, `parseLong`, and `new Double(s).intValue()` restricted to integer literals) |
| Values.NonNull | imixs-workflow-core/src/main/java/org/imixs/workflow/ItemCollection.java:636-637 | the list without its nulls keeps every non-null element and adds none |
| Values.NonNullAppend | imixs-workflow-core/src/main/java/org/imixs/workflow/ItemCollection.java:636-637 | removing nulls keeps the order: it distributes over concatenation |
| Values.NonNullIdentity | imixs-workflow-core/src/main/java/org/imixs/workflow/ItemCollection.java:636-637 | a list without nulls is stored as it is |
| Values.Normalise | imixs-workflow-core/src/main/java/org/imixs/workflow/ItemCollection.java:603-646 | the item is removed exactly for a null or non-serialisable single value; a single value becomes a one-element list; a list is stored without its nulls, so the stored list never holds null, and a list without nulls is stored as it is |
| Items.Get | imixs-workflow-core/src/main/java/org/imixs/workflow/ItemCollection.java:146-160 | an absent item reads as the empty list; a present one reads its list under the lower-cased name; a valid collection yields no null |
| Items.ReadsIgnoreCase | imixs-workflow-core/src/main/java/org/imixs/workflow/ItemCollection.java:405-408 | `hasItem` and `getItemValue` give the same answer for two names with the same lower case |
| Items.SetItem | imixs-workflow-core/src/main/java/org/imixs/workflow/ItemCollection.java:600-664 | a null name changes nothing; only the lower-cased item changes; it is present exactly when the value normalises; it then holds the normalised list, after the old one when appending; validity is kept |
| Items.Remove | imixs-workflow-core/src/main/java/org/imixs/workflow/ItemCollection.java:693-696 | the item is gone under its lower-cased name and nothing else changes |
| Items.WriteOfNullRemoves | imixs-workflow-core/src/main/java/org/imixs/workflow/ItemCollection.java:608-627 | writing null or a non-serialisable object, by replace or by append, is removeItem, so `hasItem` is false afterwards |
| Items.ReplaceReadsBack | imixs-workflow-core/src/main/java/org/imixs/workflow/ItemCollection.java:559-561 | after a replace, the item reads back as the normalised value under any spelling of the name |
| Items.AppendToAbsentIsReplace | imixs-workflow-core/src/main/java/org/imixs/workflow/ItemCollection.java:651-660 | on an absent item, appendItemValue equals replaceItemValue |
| Items.AppendAppend | imixs-workflow-core/src/main/java/org/imixs/workflow/ItemCollection.java:585-587 | two appends of lists are one append of the concatenated list |
| Items.GetString | imixs-workflow-core/src/main/java/org/imixs/workflow/ItemCollection.java:175-191 | "" for an absent or empty item; a string first value as itself; an Integer or Long as its decimal text; a Boolean as "true" or "false" |
| Items.GetInteger | imixs-workflow-core/src/main/java/org/imixs/workflow/ItemCollection.java:205-219 | 0 for an absent item and for a boolean, date or file map; an Integer as itself; a Long clamped to the int range; text that is, once trimmed, a signed decimal literal as its value clamped to the int range, and any other text as 0 |
| Items.GetLong | imixs-workflow-core/src/main/java/org/imixs/workflow/ItemCollection.java:233-247 | 0 for an absent item and for a boolean, date or file map; an Integer or Long as its value; text that is a signed decimal literal in the long range as its value, and any other text (surrounding blanks included) as 0 |
| Items.GetBoolean | imixs-workflow-core/src/main/java/org/imixs/workflow/ItemCollection.java:382-394 | false for an absent item; a Boolean as itself; text true exactly when it is "true" ignoring case; numbers, dates and file maps false |
| Items.GetDate | imixs-workflow-core/src/main/java/org/imixs/workflow/ItemCollection.java:261-276 | a date exactly when the first value is a Date; null otherwise |
| Items.NumberRendering | imixs-workflow-core/src/main/java/org/imixs/workflow/ItemCollection.java:212-213 | what each kind of value's `toString` gives the numeric and boolean readers |
| Items.BoolRendering | imixs-workflow-core/src/main/java/org/imixs/workflow/ItemCollection.java:382-394 | the text of a Boolean is no number, and it reads as true exactly for true |
| Items.DateRendering | imixs-workflow-core/src/main/java/org/imixs/workflow/ItemCollection.java:212-241 | the text of a Date is no number and does not read as true |
| Items.TypedReadsBack | imixs-workflow-core/src/main/java/org/imixs/workflow/ItemCollection.java:175-394 | each typed reader returns the value a single-value replace stored |
| Items.NumberTextReadsBack | imixs-workflow-core/src/main/java/org/imixs/workflow/ItemCollection.java:205-247 | the decimal text of an int, stored as a string, reads back as that int through getItemValueInteger and getItemValueLong |
| Items.OtherTextReadsZero | imixs-workflow-core/src/main/java/org/imixs/workflow/ItemCollection.java:214-215 | stored text that starts with neither a sign nor a digit reads as 0 through both numeric readers |
| Items.CloneItemsKeys | imixs-workflow-core/src/main/java/org/imixs/workflow/ItemCollection.java:116-124 | the clone holds exactly the listed items, under their lower-cased names |
| Items.CloneItemsValues | imixs-workflow-core/src/main/java/org/imixs/workflow/ItemCollection.java:116-124 | each listed item of the clone holds this collection's list for it; an absent one is an empty item |
| Items.FileName | imixs-workflow-core/src/main/java/org/imixs/workflow/ItemCollection.java:715-719 | the stored file name is a suffix of the given one without '\\' or '/'; a name without either is kept as it is |
| Items.ContentType | imixs-workflow-core/src/main/java/org/imixs/workflow/ItemCollection.java:721-722 | a null or empty content type becomes "application/unknown"; a given non-empty one is kept |
| Items.Files | imixs-workflow-core/src/main/java/org/imixs/workflow/ItemCollection.java:726-730 | an absent or empty `$file` item is an empty map; a first value that is no map raises ClassCastException |
| Items.WithFile | imixs-workflow-core/src/main/java/org/imixs/workflow/ItemCollection.java:711-741 | null data changes nothing; otherwise the entry under the stripped name is set, replacing one of the same name, unless the cast fails; no other item changes |
| Items.FileAdded | imixs-workflow-core/src/main/java/org/imixs/workflow/ItemCollection.java:732-739 | the `$file` item becomes the old map with the new entry |
| Items.WithoutFile | imixs-workflow-core/src/main/java/org/imixs/workflow/ItemCollection.java:748-758 | an absent `$file` item is left alone; otherwise the named entry is dropped, or the cast fails; no other item changes |
| Items.AddThenRemoveFile | imixs-workflow-core/src/main/java/org/imixs/workflow/ItemCollection.java:711-758 | adding a file and then removing it by its stored name leaves no entry of that name |
| ItemCollections.ItemCollection.constructor | imixs-workflow-core/src/main/java/org/imixs/workflow/ItemCollection.java:79-81 | an empty, valid collection |
| ItemCollections.ItemCollection.FromMap | imixs-workflow-core/src/main/java/org/imixs/workflow/ItemCollection.java:89-106 | exactly the map's lower-cased names are present; without case clashes each holds its entry without nulls; a valid map is copied as it is |
| ItemCollections.ItemCollection.SetItemValue | imixs-workflow-core/src/main/java/org/imixs/workflow/ItemCollection.java:600-664 | the new contents are SetItem of the old ones, and the collection stays valid |
| ItemCollections.ItemCollection.ReplaceItemValue | imixs-workflow-core/src/main/java/org/imixs/workflow/ItemCollection.java:559-561 | setItemValue without append |
| ItemCollections.ItemCollection.AppendItemValue | imixs-workflow-core/src/main/java/org/imixs/workflow/ItemCollection.java:585-587 | setItemValue with append |
| ItemCollections.ItemCollection.RemoveItem | imixs-workflow-core/src/main/java/org/imixs/workflow/ItemCollection.java:693-696 | the new contents are Remove of the old ones |
| ItemCollections.ItemCollection.ReplaceAllItems | imixs-workflow-core/src/main/java/org/imixs/workflow/ItemCollection.java:672-679 | items not named in the map are unchanged; every named item is present; without case clashes each holds its own entry; for a valid map the result is the old contents overridden by the map |
| ItemCollections.ReplaceAllContents | imixs-workflow-core/src/main/java/org/imixs/workflow/ItemCollection.java:672-679 | once every entry of the map is written, the items it does not name agree with the old contents and every name it holds is present |
| ItemCollections.OverrideOfLowerSource | imixs-workflow-core/src/main/java/org/imixs/workflow/ItemCollection.java:672-679 | for a map with lower-case names and without nulls, replaceAllItems is the old contents overridden by the map |
| ItemCollections.KeysAfterReplaceAll | imixs-workflow-core/src/main/java/org/imixs/workflow/ItemCollection.java:672-679 | on an empty collection, replaceAllItems leaves exactly the lower-cased names of the map |
| ItemCollections.ItemCollection.Clone | imixs-workflow-core/src/main/java/org/imixs/workflow/ItemCollection.java:116-124 | a fresh collection: empty for no list, otherwise CloneItems of the listed names |
| ItemCollections.BaseName | imixs-workflow-core/src/main/java/org/imixs/workflow/ItemCollection.java:715-719 | the two guarded cuts give FileName |
| ItemCollections.ItemCollection.CurrentFiles | imixs-workflow-core/src/main/java/org/imixs/workflow/ItemCollection.java:725-730 | the file map as Files reads it |
| ItemCollections.ItemCollection.AddFile | imixs-workflow-core/src/main/java/org/imixs/workflow/ItemCollection.java:711-741 | the new contents are WithFile's; on a failed cast, ClassCastException with nothing changed |
| ItemCollections.ItemCollection.RemoveFile | imixs-workflow-core/src/main/java/org/imixs/workflow/ItemCollection.java:748-758 | the new contents are WithoutFile's; on a failed cast, ClassCastException with nothing changed |
| ItemCollections.ItemCollection.GetFileNames | imixs-workflow-core/src/main/java/org/imixs/workflow/ItemCollection.java:800-819 | every name of the file map exactly once, or ClassCastException when `$file` holds no map |
| Plugins.KernelNameIsKey | imixs-workflow-core/src/main/java/org/imixs/workflow/ItemCollection.java:878-880 | the kernel's item names (`$uniqueid`, `$uniqueidref`, ...) are their own keys |
| SplitAndJoin.SourceName | imixs-workflow-engine/src/main/java/org/imixs/workflow/plugins/jee/SplitAndJoinPlugin.java:391-396 | a field without '\|' is its own source item |
| SplitAndJoin.TargetName | imixs-workflow-engine/src/main/java/org/imixs/workflow/plugins/jee/SplitAndJoinPlugin.java:391-396 | a field without '\|' is its own target item |
| SplitAndJoin.RenamingField | imixs-workflow-engine/src/main/java/org/imixs/workflow/plugins/jee/SplitAndJoinPlugin.java:392-394 | the field `a\|b` copies the trimmed `a` into the trimmed `b` |
| SplitAndJoin.CopyFieldsFrame | imixs-workflow-engine/src/main/java/org/imixs/workflow/plugins/jee/SplitAndJoinPlugin.java:386-400 | copyItemList changes only the target items the list names, and keeps the target valid |
| SplitAndJoin.CopyFieldsLastWins | imixs-workflow-engine/src/main/java/org/imixs/workflow/plugins/jee/SplitAndJoinPlugin.java:386-400 | a field no later field overwrites leaves its target holding the source's list |
| SplitAndJoin.CopyFieldsHead | imixs-workflow-engine/src/main/java/org/imixs/workflow/plugins/jee/SplitAndJoinPlugin.java:386-400 | the first field, when no later field writes its target, leaves the target holding the source item |
| SplitAndJoin.CopyMissingItem | imixs-workflow-engine/src/main/java/org/imixs/workflow/plugins/jee/SplitAndJoinPlugin.java:397 | a name missing in the source arrives as an empty item; it is not skipped |
| SplitAndJoin.CopyItemList | imixs-workflow-engine/src/main/java/org/imixs/workflow/plugins/jee/SplitAndJoinPlugin.java:386-400 | the tokenizer loop leaves the target as CopyItems says |
| SplitAndJoin.FieldNames | imixs-workflow-engine/src/main/java/org/imixs/workflow/plugins/jee/SplitAndJoinPlugin.java:389-396 | the source and target names cut from one token are those Src and Dst give |
| SplitAndJoin.AddRef | imixs-workflow-engine/src/main/java/org/imixs/workflow/plugins/jee/SplitAndJoinPlugin.java:405-422 | the id is referenced afterwards; no item but `txtworkitemref` changes |
| SplitAndJoin.AddRefIdempotent | imixs-workflow-engine/src/main/java/org/imixs/workflow/plugins/jee/SplitAndJoinPlugin.java:416-420 | adding a reference twice is adding it once |
| SplitAndJoin.AddRefAppends | imixs-workflow-engine/src/main/java/org/imixs/workflow/plugins/jee/SplitAndJoinPlugin.java:413-420 | a new id goes to the end of the list; a lone "" placeholder is dropped first |
| SplitAndJoin.AddRefPresent | imixs-workflow-engine/src/main/java/org/imixs/workflow/plugins/jee/SplitAndJoinPlugin.java:416 | an id already referenced leaves the work item as it is |
| SplitAndJoin.AddRefDistinct | imixs-workflow-engine/src/main/java/org/imixs/workflow/plugins/jee/SplitAndJoinPlugin.java:416-420 | the reference list never gains a duplicate |
| SplitAndJoin.AddRefKeeps | imixs-workflow-engine/src/main/java/org/imixs/workflow/plugins/jee/SplitAndJoinPlugin.java:413-420 | every non-empty reference already present stays |
| SplitAndJoin.UniqueIdOfAddRef | imixs-workflow-engine/src/main/java/org/imixs/workflow/plugins/jee/SplitAndJoinPlugin.java:405-422 | adding a reference never changes the `$uniqueid` of the work item |
| SplitAndJoin.AddWorkitemRef | imixs-workflow-engine/src/main/java/org/imixs/workflow/plugins/jee/SplitAndJoinPlugin.java:405-422 | the work item's new contents are AddRef of the old ones |
| SplitAndJoin.NewInteger | imixs-workflow-engine/src/main/java/org/imixs/workflow/plugins/jee/SplitAndJoinPlugin.java:204-207 | `new Integer(s)` gives the parsed int, or NumberFormatException exactly when the text is no ASCII decimal int literal in the int range |
| SplitAndJoin.StampSubprocess | imixs-workflow-engine/src/main/java/org/imixs/workflow/plugins/jee/SplitAndJoinPlugin.java:202-210 | `$modelversion`, `$processid`, `$activityid` and `$uniqueidref` hold the given values and nothing else changes |
| SplitAndJoin.NewSubprocess | imixs-workflow-engine/src/main/java/org/imixs/workflow/plugins/jee/SplitAndJoinPlugin.java:196-210 | building a sub-process fails exactly when the directive's process id or activity id is no int |
| SplitAndJoin.NewSubprocessContents | imixs-workflow-engine/src/main/java/org/imixs/workflow/plugins/jee/SplitAndJoinPlugin.java:196-210 | a new sub-process holds the copied items, the directive's model version, process id and activity id, and the origin's `$uniqueid` as `$uniqueidref` |
| SplitAndJoin.BuildSubprocess | imixs-workflow-engine/src/main/java/org/imixs/workflow/plugins/jee/SplitAndJoinPlugin.java:196-210 | a fresh collection holding NewSubprocess, or its exception |
| SplitAndJoin.Matches | imixs-workflow-engine/src/main/java/org/imixs/workflow/plugins/jee/SplitAndJoinPlugin.java:280-281 | a work item matches exactly when the model-version pattern and the process-id pattern both compile and both find a match; the only exception is PatternSyntaxException |
| SplitAndJoin.UpdatedSubprocess | imixs-workflow-engine/src/main/java/org/imixs/workflow/plugins/jee/SplitAndJoinPlugin.java:285-289 | updating a matching sub-process fails exactly when the activity id is no int |
| SplitAndJoin.UpdatedSubprocessContents | imixs-workflow-engine/src/main/java/org/imixs/workflow/plugins/jee/SplitAndJoinPlugin.java:285-289 | the directive's activity id wins over a copied `$activityid`; the copied items come from the origin |
| SplitAndJoin.UpdatedOrigin | imixs-workflow-engine/src/main/java/org/imixs/workflow/plugins/jee/SplitAndJoinPlugin.java:359-364 | updating a matching origin fails exactly when the activity id is no int |
| SplitAndJoin.UpdatedOriginContents | imixs-workflow-engine/src/main/java/org/imixs/workflow/plugins/jee/SplitAndJoinPlugin.java:359-364 | here the activity id is written first, so a copied `$activityid` wins over the directive's |
| SplitAndJoin.Create | imixs-workflow-engine/src/main/java/org/imixs/workflow/plugins/jee/SplitAndJoinPlugin.java:177-221 | no more work items are handed on than there are definitions; the only exceptions are ClassCastException and NumberFormatException |
| SplitAndJoin.Update | imixs-workflow-engine/src/main/java/org/imixs/workflow/plugins/jee/SplitAndJoinPlugin.java:248-298 | the only exceptions are ClassCastException (a non-string definition), NumberFormatException (an activity id that is no int) and PatternSyntaxException (a pattern that does not compile) |
| SplitAndJoin.JoinOrigin | imixs-workflow-engine/src/main/java/org/imixs/workflow/plugins/jee/SplitAndJoinPlugin.java:321-377 | an empty definition does nothing; an unparsable one raises NullPointerException |
| SplitAndJoin.CreateFrame | imixs-workflow-engine/src/main/java/org/imixs/workflow/plugins/jee/SplitAndJoinPlugin.java:177-221 | creating sub-processes changes no origin item but `txtworkitemref`, and keeps the origin valid |
| SplitAndJoin.CreateRefersToOrigin | imixs-workflow-engine/src/main/java/org/imixs/workflow/plugins/jee/SplitAndJoinPlugin.java:208-209 | every sub-process handed on refers back to the origin through `$uniqueidref` |
| SplitAndJoin.CreateKeepsLinks | imixs-workflow-engine/src/main/java/org/imixs/workflow/plugins/jee/SplitAndJoinPlugin.java:217 | a non-empty reference in the origin stays there |
| SplitAndJoin.CreateLinksSubprocesses | imixs-workflow-engine/src/main/java/org/imixs/workflow/plugins/jee/SplitAndJoinPlugin.java:212-217 | the origin refers to every processed sub-process that has an id |
| SplitAndJoin.CreateSkipsBlank | imixs-workflow-engine/src/main/java/org/imixs/workflow/plugins/jee/SplitAndJoinPlugin.java:187-190 | blank definitions create nothing and change nothing |
| SplitAndJoin.UpdateSkipsBlank | imixs-workflow-engine/src/main/java/org/imixs/workflow/plugins/jee/SplitAndJoinPlugin.java:258-261 | blank update definitions update nothing |
| SplitAndJoin.CreateSubprocesses | imixs-workflow-engine/src/main/java/org/imixs/workflow/plugins/jee/SplitAndJoinPlugin.java:177-221 | the loop's outcome, the origin's new contents and the work items handed on are those of Create |
| SplitAndJoin.UpdateSubprocess | imixs-workflow-engine/src/main/java/org/imixs/workflow/plugins/jee/SplitAndJoinPlugin.java:283-289 | the updated sub-process is UpdatedSubprocess |
| SplitAndJoin.UpdateMatching | imixs-workflow-engine/src/main/java/org/imixs/workflow/plugins/jee/SplitAndJoinPlugin.java:272-292 | the inner loop over the sub-processes hands on what UpdateEach says |
| SplitAndJoin.UpdateSubprocesses | imixs-workflow-engine/src/main/java/org/imixs/workflow/plugins/jee/SplitAndJoinPlugin.java:248-298 | the loop's outcome and hand-offs are those of Update |
| SplitAndJoin.UpdateOriginItem | imixs-workflow-engine/src/main/java/org/imixs/workflow/plugins/jee/SplitAndJoinPlugin.java:359-364 | the updated origin is UpdatedOrigin |
| SplitAndJoin.UpdateOrigin | imixs-workflow-engine/src/main/java/org/imixs/workflow/plugins/jee/SplitAndJoinPlugin.java:321-377 | the loop's outcome and hand-offs are those of JoinOrigin |
| SplitAndJoin.CreateDirective | imixs-workflow-engine/src/main/java/org/imixs/workflow/plugins/jee/SplitAndJoinPlugin.java:115-120 | the create step keeps the work item valid and changes no item but `txtworkitemref` |
| SplitAndJoin.RunCreate | imixs-workflow-engine/src/main/java/org/imixs/workflow/plugins/jee/SplitAndJoinPlugin.java:115-120 | the create step as CreateDirective says |
| SplitAndJoin.RunLater | imixs-workflow-engine/src/main/java/org/imixs/workflow/plugins/jee/SplitAndJoinPlugin.java:124-138 | the update and origin-update steps as LaterDirectives says |
| SplitAndJoin.RunWithoutDirectives | imixs-workflow-engine/src/main/java/org/imixs/workflow/plugins/jee/SplitAndJoinPlugin.java:109-143 | an event result without any of the three directives does nothing and returns PLUGIN_OK |
| SplitAndJoin.RunFrame | imixs-workflow-engine/src/main/java/org/imixs/workflow/plugins/jee/SplitAndJoinPlugin.java:109-143 | a run changes no item of the work item but `txtworkitemref` |
| SplitAndJoin.Run | imixs-workflow-engine/src/main/java/org/imixs/workflow/plugins/jee/SplitAndJoinPlugin.java:109-143 | the work item, the hand-offs and the status (PLUGIN_OK or the first exception) are those of RunSteps |
| Application.WrittenItemKeys | imixs-workflow-engine/src/main/java/org/imixs/workflow/plugins/ApplicationPlugin.java:144-169 | the seven item names written are stored under these lower-case keys |
| Application.NextTask | imixs-workflow-engine/src/main/java/org/imixs/workflow/plugins/ApplicationPlugin.java:102-111 | the next task is the model's entry for the event's `numNextProcessID` and `$modelVersion`, and is absent exactly when the model has none |
| Application.Substituted | imixs-workflow-engine/src/main/java/org/imixs/workflow/plugins/ApplicationPlugin.java:130-140 | an empty abstract or summary stays ""; any other goes through replaceDynamicValues |
| Application.NonEmpty | imixs-workflow-engine/src/main/java/org/imixs/workflow/plugins/ApplicationPlugin.java:148-159 | editor, image and type are written exactly when they are not empty |
| Application.WriteIfPresent | imixs-workflow-engine/src/main/java/org/imixs/workflow/plugins/ApplicationPlugin.java:144-169 | one guarded write: nothing without a value, otherwise the item holds the one string, and no other item changes |
| Application.WriteAllFrame | imixs-workflow-engine/src/main/java/org/imixs/workflow/plugins/ApplicationPlugin.java:144-169 | a key no write names keeps its entry |
| Application.WriteAllGet | imixs-workflow-engine/src/main/java/org/imixs/workflow/plugins/ApplicationPlugin.java:144-169 | a write whose key no other write names decides that item at the end |
| Application.WritesDistinct | imixs-workflow-engine/src/main/java/org/imixs/workflow/plugins/ApplicationPlugin.java:144-169 | the seven items are stored under seven different keys |
| Application.TaskSettings | imixs-workflow-engine/src/main/java/org/imixs/workflow/plugins/ApplicationPlugin.java:120-140 | an empty abstract or summary in the task is kept as "" |
| Application.WriteSetting | imixs-workflow-engine/src/main/java/org/imixs/workflow/plugins/ApplicationPlugin.java:144-169 | one write on the work item, as WriteIfPresent says |
| Application.WriteLeading | imixs-workflow-engine/src/main/java/org/imixs/workflow/plugins/ApplicationPlugin.java:144-155 | status, group, editor and image written in turn, leaving the rest of the writes to do |
| Application.WriteTrailing | imixs-workflow-engine/src/main/java/org/imixs/workflow/plugins/ApplicationPlugin.java:157-169 | type, abstract and summary written in turn |
| Application.WriteSettings | imixs-workflow-engine/src/main/java/org/imixs/workflow/plugins/ApplicationPlugin.java:142-169 | the work item's new contents are ApplySettings of the old ones |
| Application.RunResult | imixs-workflow-engine/src/main/java/org/imixs/workflow/plugins/ApplicationPlugin.java:87-174 | a follow-up event gives PLUGIN_OK with nothing written; a missing task gives PLUGIN_WARNING with nothing written; otherwise PLUGIN_OK with the task's settings applied |
| Application.RunTakesTask | imixs-workflow-engine/src/main/java/org/imixs/workflow/plugins/ApplicationPlugin.java:99-169 | a run that finds its next task takes over and writes that task's settings |
| Application.ApplyFrame | imixs-workflow-engine/src/main/java/org/imixs/workflow/plugins/ApplicationPlugin.java:142-169 | only the seven application items can change |
| Application.ApplyStatusAndGroup | imixs-workflow-engine/src/main/java/org/imixs/workflow/plugins/ApplicationPlugin.java:144-145 | status and group are always written, even when empty |
| Application.ApplyOptionalSettings | imixs-workflow-engine/src/main/java/org/imixs/workflow/plugins/ApplicationPlugin.java:148-159 | editor, image and type are written only when not empty; otherwise the old item is kept |
| Application.ApplyTexts | imixs-workflow-engine/src/main/java/org/imixs/workflow/plugins/ApplicationPlugin.java:161-169 | abstract and summary are written unless the substitution gave null |
| Application.TaskTexts | imixs-workflow-engine/src/main/java/org/imixs/workflow/plugins/ApplicationPlugin.java:130-140 | an empty abstract or summary is written as "" without substitution |
| Application.ApplicationPlugin.constructor | imixs-workflow-engine/src/main/java/org/imixs/workflow/plugins/ApplicationPlugin.java:75-83 | all seven fields and the document context start as null |
| Application.ApplicationPlugin.TakeSettings | imixs-workflow-engine/src/main/java/org/imixs/workflow/plugins/ApplicationPlugin.java:120-169 | the fields take the task's settings and the work item is written as ApplySettings says |
| Application.ApplicationPlugin.Run | imixs-workflow-engine/src/main/java/org/imixs/workflow/plugins/ApplicationPlugin.java:87-174 | the status and new work item are RunResult's; the document context is the given work item; the fields are reset, then set from the task, as KeptAfter says |
| EntityRest.ItemList | imixs-workflow-jax-rs/src/main/java/org/imixs/workflow/jaxrs/EntityRestService.java:400-408 | null exactly for a null or empty input; otherwise non-empty names without commas |
| EntityRest.GetItemList | imixs-workflow-jax-rs/src/main/java/org/imixs/workflow/jaxrs/EntityRestService.java:400-408 | the tokenizer loop returns ItemList |
| EntityRest.ItemListOfJoin | imixs-workflow-jax-rs/src/main/java/org/imixs/workflow/jaxrs/EntityRestService.java:400-408 | comma-joined non-empty names without commas are read back in order, untrimmed |
| EntityRest.ItemListKeepsText | imixs-workflow-jax-rs/src/main/java/org/imixs/workflow/jaxrs/EntityRestService.java:403-407 | the names hold exactly the text's characters other than commas, so empty tokens are dropped and nothing else is |
| EntityRest.ItemListOfCommas | imixs-workflow-jax-rs/src/main/java/org/imixs/workflow/jaxrs/EntityRestService.java:403-407 | a list of commas only is read as an empty list, not as null |
| EntityRest.Unwrapped | imixs-workflow-jax-rs/src/main/java/org/imixs/workflow/jaxrs/EntityRestService.java:421-423 | a runtime exception with a cause is replaced by the cause; the cast fails exactly when the cause is not a runtime exception |
| EntityRest.TextValue | imixs-workflow-jax-rs/src/main/java/org/imixs/workflow/jaxrs/EntityRestService.java:426-429 | a null code or message is written as null |
| EntityRest.ErrorAnnotated | imixs-workflow-jax-rs/src/main/java/org/imixs/workflow/jaxrs/EntityRestService.java:418-432 | the annotation fails exactly when the unwrapping cast does, and keeps the work item valid |
| EntityRest.AccessDeniedAnnotates | imixs-workflow-jax-rs/src/main/java/org/imixs/workflow/jaxrs/EntityRestService.java:425-429 | an access denial sets `$error_code` and `$error_message`; a null one removes the item |
| EntityRest.RuntimeNeverAnnotates | imixs-workflow-jax-rs/src/main/java/org/imixs/workflow/jaxrs/EntityRestService.java:421-431 | any other exception leaves the work item as it was, or fails the cast |
| EntityRest.AddErrorMessage | imixs-workflow-jax-rs/src/main/java/org/imixs/workflow/jaxrs/EntityRestService.java:418-432 | the work item changes as ErrorAnnotated says, or ClassCastException with nothing changed |
| EntityRest.Merged | imixs-workflow-jax-rs/src/main/java/org/imixs/workflow/jaxrs/EntityRestService.java:270-281 | neither `$error_code` nor `$error_message` survives the clean-up; validity is kept |
| EntityRest.MergeContents | imixs-workflow-jax-rs/src/main/java/org/imixs/workflow/jaxrs/EntityRestService.java:272-278 | every incoming item is saved as it came; the stored instance keeps each item the incoming one lacks |
| EntityRest.MergeInstance | imixs-workflow-jax-rs/src/main/java/org/imixs/workflow/jaxrs/EntityRestService.java:270-281 | the work item to save holds Merged; without a stored instance it is the incoming collection itself |
| EntityRest.Respond | imixs-workflow-jax-rs/src/main/java/org/imixs/workflow/jaxrs/EntityRestService.java:294-304 | 406 with the entity exactly when it carries `$error_code`, otherwise 200 with the entity |
| EntityRest.DeniedSaveRejected | imixs-workflow-jax-rs/src/main/java/org/imixs/workflow/jaxrs/EntityRestService.java:283-301 | a save refused for lack of access is answered 406 with the error code |
| EntityRest.RuntimeFailureAccepted | imixs-workflow-jax-rs/src/main/java/org/imixs/workflow/jaxrs/EntityRestService.java:286-304 | a save failing with a runtime exception without a cause is answered 200 with the merged work item |
| EntityRest.PutEntity | imixs-workflow-jax-rs/src/main/java/org/imixs/workflow/jaxrs/EntityRestService.java:256-309 | the response (401, 406, or the entity) is PutResult's |

## Left out

- Floating-point readers: `getItemValueDouble` and `getItemValueFloat` are left out, and so is the `isItemValue…` family. The `new Double(s).intValue()` path of `getItemValueInteger` is modelled only for text that is, once trimmed, an optional sign followed by decimal digits; fractions, exponents, "Infinity", "NaN" and suffixes such as "12d" are not modelled: the model reads all such text as 0, where Java reads "1.5" as 1, "1e3" as 1000, "Infinity" as Integer.MAX_VALUE and "12d" as 12.
- `Object.toString` of a Date, and the `HashMap.toString` of a file map, depend on the time zone and on hash order. They are modelled as opaque renderings: the model only knows that they are not numbers and not "true".
- Lower-casing covers the Basic Latin and Latin-1 upper-case letters only; other Unicode case mappings are not modelled, and neither is the dependence of `String.toLowerCase()` on the default locale (a Turkish locale maps "I" to a dotless "ı").
- Aliasing: `getItemValue` and `getAllItems` return live lists. The in-place null-scan loop inside `getItemValue` is not modelled; neither is the in-place change of the list or file map that `appendItemValue`, `addWorkitemRef` and `addFile` make before writing it back. Contents are values here, so a caller holding an old list sees no change.
- `setAllItems`, `getFiles`, `equals`, the protected `clone()`, and the JSF adapters (`ItemAdapter`, `ItemListAdapter`, `ItemListArrayAdapter`) are UI or bypass code and are not modelled.
- Values.Normalise: Java tests `instanceof Serializable` before `instanceof List` (IC:623-632) and strips nulls in place, and the model does not capture three cases that follow from this:
  - a List that is not Serializable, such as the view `ArrayList.subList(..)` returns, removes the item in Java, but the model stores it;
  - an unmodifiable list (`Collections.unmodifiableList(..)`), or a fixed-size `Arrays.asList(..)` that holds a null, makes `removeAll` throw UnsupportedOperationException;
  - an append of a non-empty value onto an item stored as a fixed-size `Arrays.asList(..)` list throws at `addAll` (IC:655).

  The model has one kind of list, which is serialisable and modifiable.
- Null arguments that make Java raise NullPointerException are not modelled, because the model's names are non-null strings. These are: `removeItem(null)`; `getItemValue` and `hasItem` with a null name; `addFile` with a null file name (IC:716); and a null element in the list given to `clone(List)`.
- ItemCollections.ItemCollection.FromMap and ItemCollections.ItemCollection.ReplaceAllItems: a null value in the given map makes Java remove that item. The model's map holds lists, so a null map value is not modelled, and neither is a null key.
- ItemCollections.ItemCollection.ReplaceAllItems: when two names of the map differ only in case, Java's `HashMap` iteration order decides which entry wins. The contract states only that one of them is stored. The order itself is not modelled.
- SplitAndJoin.CopyItemList: it requires the source and the target to be different collections, which every call in the plugin satisfies.
- `ResultPlugin.evaluateWorkflowResult` and `parseItemStructure`, the workflow service (`processWorkItem`, `getWorkListByRef`, `getWorkItem`), the model's `getProcessEntity`, `replaceDynamicValues` (in `AbstractPlugin`), and the entity service's `load` and `save` are not part of this model. They are parameters. Two assumptions stand in for the fact that they return ItemCollection objects:
  - `ValidServices`: the work items they return are valid;
  - `ValidStore`: the stored entity is valid.
- The regular-expression match of model version and process id is the parameter `find`, because `java.util.regex` is not part of this model. It returns None for a pattern that does not compile, which the model raises as PatternSyntaxException.
- The services are pure, total functions. Three behaviours follow from this:
  - `getWorkListByRef` returns the same list for every definition, so in the model a later `subprocess_update` definition sees the sub-processes as they were before `processWorkItem` saved the updates of an earlier definition;
  - `getWorkItem` likewise does not see the origins saved by earlier iterations;
  - `load` in putEntity never raises, where in Java an exception from it, inside the try block at ER:268-283, would annotate the incoming collection.
- SplitAndJoin.Update: its list of exceptions covers only those the plugin raises itself. An exception from a service is not modelled.
- SplitAndJoin.NewInteger: `Integer.parseInt` accepts any Unicode decimal digit (for example Arabic-Indic digits). The model accepts ASCII digits only and raises NumberFormatException for the others; `Long.parseLong` and `ParseDecimal` are modelled the same way.
- The result of `processWorkItem` in `updateSubprocesses` and `updateOrigin` is discarded by the source. The model records the work items handed to it and ignores what it returns. A `PluginException` or `ProcessingErrorException` raised by the services is not modelled.
- The `PLUGIN_OK`, `PLUGIN_WARNING` and kernel item-name constants come from `Plugin` and `WorkflowKernel`, which are not part of this model. Their values are written out in `Plugins`.
- `AccessDeniedException` is modelled as a checked exception. This is a choice: its class is not part of this model, and the source also fits an unchecked one. `run` at SJ:109 declares only `PluginException` while its callees declare `AccessDeniedException` (SJ:178), and the `(RuntimeException)` cast at ER:421-422 only makes sense for an unchecked cause. Under the checked reading, a `RuntimeException` whose cause is an access denial makes the cast in `addErrorMessage` raise ClassCastException, so that denial is never annotated (`EntityRest.Unwrapped`, `EntityRest.RuntimeNeverAnnotates`). Under the unchecked reading, Java would annotate a denial wrapped in a `RuntimeException`, and it would replace a top-level denial that has a cause by that cause; the model captures neither.
- putEntity: the XML conversion is a parameter, and so is a null result from it. The outer try/catch around the XML rendering of the response is left out, because that rendering is not modelled. A null result from `save` is left out.
- Logging, the HTML help page, the JAX-RS annotations, the role check's servlet request (a boolean parameter), backup, restore, index management and the query endpoints are left out.
- The transition kernel, the BPMN model parser and the rule plugin are left out: their sources are not part of this model.

=== FILE: application_plugin.dfy ===
/** The ApplicationPlugin: after an event it copies the application settings
    of the next task (status, group, editor, image, type, abstract and
    summary) into the work item. The model of tasks is a map from a process
    id and a model version to the task's items; replaceDynamicValues is a
    parameter. */
module Application {

  import opened Wrappers
  import opened Numbers
  import opened Values
  import opened Text
  import opened Items
  import opened ItemCollections
  import opened Plugins

  // Items of the event
  const FollowUpItem: string := "keyFollowUp"
  const NextProcessItem: string := "numNextProcessID"
  const EventModelVersionItem: string := "$modelVersion"

  // Items of the next task
  const TaskEditorItem: string := "txtEditorID"
  const TaskImageItem: string := "txtImageURL"
  const TaskNameItem: string := "txtname"
  const TaskGroupItem: string := "txtworkflowgroup"
  const TaskTypeItem: string := "txttype"
  const TaskAbstractItem: string := "txtworkflowabstract"
  const TaskSummaryItem: string := "txtworkflowsummary"

  // Items written into the work item, spelled as the plugin spells them
  const StatusItem: string := "txtWorkflowStatus"
  const GroupItem: string := "txtworkflowgroup"
  const EditorItem: string := "txtWorkflowEditorID"
  const ImageItem: string := "txtWorkflowImageURL"
  const TypeItem: string := "type"
  const AbstractItem: string := "txtworkflowabstract"
  const SummaryItem: string := "txtworkflowsummary"

  /** The tasks of the workflow model: getProcessEntity(processId, modelVersion). */
  type Model = map<(Int32, string), Items>

  /** replaceDynamicValues(text, workitem); None stands for null. */
  type Substitution = (string, Items) -> Option<string>

  /** The keys the plugin may write, the lower-cased names of the items above. */
  function WrittenKeys(): set<string> {
    {"txtworkflowstatus", "txtworkflowgroup", "txtworkfloweditorid", "txtworkflowimageurl",
     "type", "txtworkflowabstract", "txtworkflowsummary"}
  }

  /** The lower-cased name of a text, character by character. */
  lemma KeyIs(name: string, key: string)
    requires |name| == |key| && forall i :: 0 <= i < |name| ==> LowerChar(name[i]) == key[i]
    ensures Key(name) == key
  {
  }

  /** The items the plugin writes are stored under these keys. */
  lemma WrittenItemKeys()
    ensures Key(StatusItem) == "txtworkflowstatus"
    ensures Key(GroupItem) == "txtworkflowgroup"
    ensures Key(EditorItem) == "txtworkfloweditorid"
    ensures Key(ImageItem) == "txtworkflowimageurl"
    ensures Key(TypeItem) == "type"
    ensures Key(AbstractItem) == "txtworkflowabstract"
    ensures Key(SummaryItem) == "txtworkflowsummary"
  {
    KeyIs(StatusItem, "txtworkflowstatus");
    KeyIs(GroupItem, "txtworkflowgroup");
    KeyIs(EditorItem, "txtworkfloweditorid");
    KeyIs(ImageItem, "txtworkflowimageurl");
    KeyIs(TypeItem, "type");
    KeyIs(AbstractItem, "txtworkflowabstract");
    KeyIs(SummaryItem, "txtworkflowsummary");
  }

  /** The next task of an event: the one the model holds for the event's
      `numNextProcessID` and `$modelVersion`, None when there is none. */
  function NextTask(event: Items, model: Model): (r: Option<Items>)
    ensures r.Some? <==> (GetInteger(event, NextProcessItem), GetString(event, EventModelVersionItem)) in model
    ensures r.Some? ==> r.value == model[(GetInteger(event, NextProcessItem), GetString(event, EventModelVersionItem))]
  {
    var key := (GetInteger(event, NextProcessItem), GetString(event, EventModelVersionItem));
    if key in model then Some(model[key]) else None
  }

  /** The abstract or summary text as the plugin holds it before writing:
      an empty text stays empty, any other goes through the substitution. */
  function Substituted(text: string, workitem: Items, replace: Substitution): (r: Option<string>)
    ensures text == "" ==> r == Some("")
    ensures text != "" ==> r == replace(text, workitem)
  {
    if text == "" then Some(text) else replace(text, workitem)
  }

  /** A setting that is written only when it is not empty (the plugin's
      `!"".equals(value)` guard); None means no write. */
  function NonEmpty(value: string): (r: Option<string>)
    ensures r.None? <==> value == ""
    ensures r.Some? ==> r.value == value
  {
    if value == "" then None else Some(value)
  }

  /** One write of the plugin: replaceItemValue(name, value) when there is a
      value, nothing otherwise. */
  function WriteIfPresent(m: Items, name: string, value: Option<string>): (r: Items)
    ensures value.None? ==> r == m
    ensures value.Some? ==> Get(r, name) == [Str(value.value)]
    ensures forall k :: k != Key(name) ==> Agree(m, r, k)
    ensures ValidItems(m) ==> ValidItems(r)
  {
    if value.None? then m else Replace(m, name, Single(Str(value.value)))
  }

  /** A sequence of writes, performed in order. */
  function WriteAll(m: Items, writes: seq<(string, Option<string>)>): (r: Items)
    ensures ValidItems(m) ==> ValidItems(r)
    decreases |writes|
  {
    if writes == [] then m
    else WriteAll(WriteIfPresent(m, writes[0].0, writes[0].1), writes[1..])
  }

  /** The writes from position i on: the write at i, then the rest. */
  lemma WriteAllStep(m: Items, writes: seq<(string, Option<string>)>, i: nat)
    requires i < |writes|
    ensures WriteAll(m, writes[i..]) == WriteAll(WriteIfPresent(m, writes[i].0, writes[i].1), writes[i + 1..])
  {
    assert writes[i..][1..] == writes[i + 1..];
  }

  /** One write of the plugin on the work item, the one at position i of
      `writes`: what is left to write after it is the rest of the list. */
  method WriteSetting(context: ItemCollection, name: string, value: Option<string>,
                      ghost writes: seq<(string, Option<string>)>, ghost i: nat, ghost goal: Items)
    requires context.Valid() && i < |writes| && writes[i] == (name, value)
    requires goal == WriteAll(context.hash, writes[i..])
    modifies context
    ensures context.Valid()
    ensures context.hash == WriteIfPresent(old(context.hash), name, value)
    ensures goal == WriteAll(context.hash, writes[i + 1..])
  {
    WriteAllStep(context.hash, writes, i);
    if value.Some? {
      context.ReplaceItemValue(Some(name), Single(Str(value.value)));
    }
  }

  /** The seven writes of the plugin, in its order, each one guarded as
      WriteIfPresent says. */
  method WriteSettings(context: ItemCollection, s: Settings)
    requires context.Valid()
    modifies context
    ensures context.Valid()
    ensures context.hash == ApplySettings(old(context.hash), s)
  {
    ghost var writes := Writes(s);
    ghost var goal := ApplySettings(context.hash, s);
    assert writes[0..] == writes;
    WriteLeading(context, s, writes, goal);
    WriteTrailing(context, s, writes, goal);
    assert writes[7..] == [];
  }

  /** The first four writes: status, group, editor and image. */
  method WriteLeading(context: ItemCollection, s: Settings, ghost writes: seq<(string, Option<string>)>, ghost goal: Items)
    requires context.Valid() && writes == Writes(s) && goal == WriteAll(context.hash, writes[0..])
    modifies context
    ensures context.Valid() && goal == WriteAll(context.hash, writes[4..])
  {
    WriteSetting(context, StatusItem, Some(s.status), writes, 0, goal);
    WriteSetting(context, GroupItem, Some(s.group), writes, 1, goal);
    WriteSetting(context, EditorItem, NonEmpty(s.editorId), writes, 2, goal);
    WriteSetting(context, ImageItem, NonEmpty(s.imageUrl), writes, 3, goal);
  }

  /** The last three writes: task type, abstract and summary. */
  method WriteTrailing(context: ItemCollection, s: Settings, ghost writes: seq<(string, Option<string>)>, ghost goal: Items)
    requires context.Valid() && writes == Writes(s) && goal == WriteAll(context.hash, writes[4..])
    modifies context
    ensures context.Valid() && goal == WriteAll(context.hash, writes[7..])
  {
    WriteSetting(context, TypeItem, NonEmpty(s.taskType), writes, 4, goal);
    WriteSetting(context, AbstractItem, s.abstractText, writes, 5, goal);
    WriteSetting(context, SummaryItem, s.summary, writes, 6, goal);
  }

  /** A key no write names keeps its entry. */
  lemma {:induction false} WriteAllFrame(m: Items, writes: seq<(string, Option<string>)>, k: string)
    requires forall i :: 0 <= i < |writes| ==> Key(writes[i].0) != k
    ensures Agree(m, WriteAll(m, writes), k)
    decreases |writes|
  {
    if writes != [] {
      var next := WriteIfPresent(m, writes[0].0, writes[0].1);
      assert Key(writes[0].0) != k;
      WriteAllFrame(next, writes[1..], k);
    }
  }

  /** A write whose key no other write names decides that item at the end:
      its value when it has one, the entry it found otherwise. */
  lemma {:induction false} WriteAllGet(m: Items, writes: seq<(string, Option<string>)>, j: nat)
    requires j < |writes|
    requires forall i :: 0 <= i < |writes| && i != j ==> Key(writes[i].0) != Key(writes[j].0)
    ensures writes[j].1.Some? ==> Get(WriteAll(m, writes), writes[j].0) == [Str(writes[j].1.value)]
    ensures writes[j].1.None? ==> Agree(m, WriteAll(m, writes), Key(writes[j].0))
    decreases |writes|
  {
    var next := WriteIfPresent(m, writes[0].0, writes[0].1);
    if j == 0 {
      WriteAllFrame(next, writes[1..], Key(writes[0].0));
    } else {
      assert Key(writes[0].0) != Key(writes[j].0);
      WriteAllGet(next, writes[1..], j - 1);
    }
  }

  /** The settings the plugin takes from the next task, as it holds them in
      its fields before writing: abstract and summary are None when the
      substitution gave null. */
  datatype Settings = Settings(
    editorId: string, imageUrl: string, status: string, group: string, taskType: string,
    abstractText: Option<string>, summary: Option<string>)

  /** The settings of a task; the substitution sees the work item as it was
      before the plugin writes anything. */
  function TaskSettings(task: Items, workitem: Items, replace: Substitution): (s: Settings)
    ensures GetString(task, TaskAbstractItem) == "" ==> s.abstractText == Some("")
    ensures GetString(task, TaskSummaryItem) == "" ==> s.summary == Some("")
  {
    Settings(
      GetString(task, TaskEditorItem), GetString(task, TaskImageItem),
      GetString(task, TaskNameItem), GetString(task, TaskGroupItem), GetString(task, TaskTypeItem),
      Substituted(GetString(task, TaskAbstractItem), workitem, replace),
      Substituted(GetString(task, TaskSummaryItem), workitem, replace))
  }

  /** The writes of the plugin, in its order: status and group always,
      editor, image and type when not empty, abstract and summary unless the
      substitution gave null. */
  function Writes(s: Settings): seq<(string, Option<string>)> {
    [(StatusItem, Some(s.status)), (GroupItem, Some(s.group)),
     (EditorItem, NonEmpty(s.editorId)), (ImageItem, NonEmpty(s.imageUrl)), (TypeItem, NonEmpty(s.taskType)),
     (AbstractItem, s.abstractText), (SummaryItem, s.summary)]
  }

  /** The seven items are stored under seven different keys. */
  lemma WritesDistinct(s: Settings)
    ensures forall i, j :: 0 <= i < j < |Writes(s)| ==> Key(Writes(s)[i].0) != Key(Writes(s)[j].0)
  {
    WrittenItemKeys();
  }

  /** The work item after the settings have been written. */
  function ApplySettings(m: Items, s: Settings): (r: Items)
    ensures ValidItems(m) ==> ValidItems(r)
  {
    WriteAll(m, Writes(s))
  }

  /** The work item after the settings of the next task have been written. */
  function ApplyTask(m: Items, task: Items, replace: Substitution): (r: Items)
    ensures ValidItems(m) ==> ValidItems(r)
  {
    ApplySettings(m, TaskSettings(task, m, replace))
  }

  /** What a run does to the work item: nothing for a follow-up event or a
      missing next task, the next task's settings otherwise. */
  function RunResult(m: Items, event: Items, model: Model, replace: Substitution): (r: (PluginStatus, Items))
    ensures GetString(event, FollowUpItem) == "1" ==> r == (PluginOk, m)
    ensures GetString(event, FollowUpItem) != "1" && NextTask(event, model).None? ==> r == (PluginWarning, m)
    ensures GetString(event, FollowUpItem) != "1" && NextTask(event, model).Some? ==>
              r == (PluginOk, ApplyTask(m, NextTask(event, model).value, replace))
  {
    if GetString(event, FollowUpItem) == "1" then (PluginOk, m)
    else match NextTask(event, model)
      case None => (PluginWarning, m)
      case Some(task) => (PluginOk, ApplyTask(m, task, replace))
  }

  /** The settings a run takes over from the model: none for a follow-up
      event or a missing next task. */
  function RunSettings(m: Items, event: Items, model: Model, replace: Substitution): Option<Settings> {
    if GetString(event, FollowUpItem) == "1" then None
    else match NextTask(event, model)
      case None => None
      case Some(task) => Some(TaskSettings(task, m, replace))
  }

  /** A run that finds its next task takes over that task's settings. */
  lemma RunTakesTask(m: Items, event: Items, model: Model, replace: Substitution, task: Items)
    requires GetString(event, FollowUpItem) != "1" && NextTask(event, model) == Some(task)
    ensures RunSettings(m, event, model, replace) == Some(TaskSettings(task, m, replace))
    ensures RunResult(m, event, model, replace) == (PluginOk, ApplySettings(m, TaskSettings(task, m, replace)))
  {
  }

  // ---------------------------------------------------------------------
  // Properties of ApplySettings
  // ---------------------------------------------------------------------

  /** Only the seven application items can change. */
  lemma ApplyFrame(m: Items, s: Settings)
    ensures forall k :: k !in WrittenKeys() ==> Agree(m, ApplySettings(m, s), k)
  {
    WrittenItemKeys();
    forall k | k !in WrittenKeys()
      ensures Agree(m, ApplySettings(m, s), k)
    {
      WriteAllFrame(m, Writes(s), k);
    }
  }

  /** The item of write j at the end of ApplySettings. */
  lemma ApplyWrite(m: Items, s: Settings, j: nat)
    requires j < 7
    ensures Writes(s)[j].1.Some? ==> Get(ApplySettings(m, s), Writes(s)[j].0) == [Str(Writes(s)[j].1.value)]
    ensures Writes(s)[j].1.None? ==> Agree(m, ApplySettings(m, s), Key(Writes(s)[j].0))
  {
    WritesDistinct(s);
    WriteAllGet(m, Writes(s), j);
  }

  /** Status and group are always written, even when they are empty. */
  lemma ApplyStatusAndGroup(m: Items, s: Settings)
    ensures Get(ApplySettings(m, s), StatusItem) == [Str(s.status)]
    ensures Get(ApplySettings(m, s), GroupItem) == [Str(s.group)]
  {
    ApplyWrite(m, s, 0);
    ApplyWrite(m, s, 1);
  }

  /** Editor, image and type are written only when they are not empty;
      otherwise the work item keeps its previous value. */
  lemma ApplyOptionalSettings(m: Items, s: Settings)
    ensures var r := ApplySettings(m, s);
      && (s.editorId != "" ==> Get(r, EditorItem) == [Str(s.editorId)])
      && (s.editorId == "" ==> Agree(m, r, Key(EditorItem)))
      && (s.imageUrl != "" ==> Get(r, ImageItem) == [Str(s.imageUrl)])
      && (s.imageUrl == "" ==> Agree(m, r, Key(ImageItem)))
      && (s.taskType != "" ==> Get(r, TypeItem) == [Str(s.taskType)])
      && (s.taskType == "" ==> Agree(m, r, Key(TypeItem)))
  {
    ApplyWrite(m, s, 2);
    ApplyWrite(m, s, 3);
    ApplyWrite(m, s, 4);
  }

  /** Abstract and summary are written unless the substitution gave null. */
  lemma ApplyTexts(m: Items, s: Settings)
    ensures var r := ApplySettings(m, s);
      && (s.abstractText.Some? ==> Get(r, AbstractItem) == [Str(s.abstractText.value)])
      && (s.abstractText.None? ==> Agree(m, r, Key(AbstractItem)))
      && (s.summary.Some? ==> Get(r, SummaryItem) == [Str(s.summary.value)])
      && (s.summary.None? ==> Agree(m, r, Key(SummaryItem)))
  {
    ApplyWrite(m, s, 5);
    ApplyWrite(m, s, 6);
  }

  /** An empty abstract or summary in the task is written as "", whatever the
      substitution does; a non-empty one is substituted first. */
  lemma TaskTexts(task: Items, workitem: Items, replace: Substitution)
    ensures var s := TaskSettings(task, workitem, replace);
      var a := GetString(task, TaskAbstractItem);
      var t := GetString(task, TaskSummaryItem);
      && (a == "" ==> s.abstractText == Some(""))
      && (a != "" ==> s.abstractText == replace(a, workitem))
      && (t == "" ==> s.summary == Some(""))
      && (t != "" ==> s.summary == replace(t, workitem))
  {
  }

  /** The fields of the plugin, as one value. */
  datatype Kept = Kept(
    editorId: Option<string>, taskType: Option<string>, imageUrl: Option<string>, status: Option<string>,
    group: Option<string>, abstractText: Option<string>, summary: Option<string>)

  /** The fields after a run: editor, image, abstract and summary are reset
      at the start of every run and type, status and group keep their old
      values; the settings of a next task, when one is found, replace all
      seven. */
  function KeptAfter(k: Kept, settings: Option<Settings>): Kept {
    match settings
    case None => k.(editorId := None, imageUrl := None, abstractText := None, summary := None)
    case Some(s) =>
      Kept(Some(s.editorId), Some(s.taskType), Some(s.imageUrl), Some(s.status), Some(s.group),
           s.abstractText, s.summary)
  }

  /** The plugin: the settings of the last run are kept in fields, as the
      source keeps them between calls. */
  class ApplicationPlugin {
    var documentContext: ItemCollection?
    var editorId: Option<string>
    var taskType: Option<string>
    var imageUrl: Option<string>
    var status: Option<string>
    var group: Option<string>
    var abstractText: Option<string>
    var summary: Option<string>

    function State(): Kept
      reads this
    {
      Kept(editorId, taskType, imageUrl, status, group, abstractText, summary)
    }

    constructor ()
      ensures documentContext == null
      ensures editorId.None? && taskType.None? && imageUrl.None? && status.None?
      ensures group.None? && abstractText.None? && summary.None?
    {
      documentContext := null;
      editorId, taskType, imageUrl, status := None, None, None, None;
      group, abstractText, summary := None, None, None;
    }

    /** run(documentContext, event): the status and the new contents of the
        work item are those RunResult gives. Editor, image, abstract and
        summary are reset at the start of every run; type, status and group
        keep the values of an earlier run when nothing is looked up. */
    method Run(context: ItemCollection, event: Items, model: Model, replace: Substitution) returns (r: PluginStatus)
      requires context.Valid()
      modifies this, context
      ensures context.Valid() && documentContext == context
      ensures (r, context.hash) == RunResult(old(context.hash), event, model, replace)
      ensures State() == KeptAfter(old(State()), RunSettings(old(context.hash), event, model, replace))
    {
      ghost var m := context.hash;
      documentContext := context;
      editorId, imageUrl, abstractText, summary := None, None, None, None;
      if GetString(event, FollowUpItem) == "1" {
        return PluginOk;
      }
      // the model lookup by the event's next process id and model version
      var next := NextTask(event, model);
      if next.None? {
        return PluginWarning;
      }
      var s := TaskSettings(next.value, context.hash, replace);
      TakeSettings(context, s);
      RunTakesTask(m, event, model, replace, next.value);
      r := PluginOk;
    }

    /** The settings of the next task kept in the fields and written into
        the work item. */
    method TakeSettings(context: ItemCollection, s: Settings)
      requires context.Valid()
      modifies this, context
      ensures context.Valid() && documentContext == old(documentContext)
      ensures context.hash == ApplySettings(old(context.hash), s)
      ensures State() == KeptAfter(old(State()), Some(s))
    {
      WriteSettings(context, s);
      editorId, imageUrl, status := Some(s.editorId), Some(s.imageUrl), Some(s.status);
      group, taskType := Some(s.group), Some(s.taskType);
      abstractText, summary := s.abstractText, s.summary;
    }
  }
}

=== FILE: entity_rest_service.dfy ===
/** The parts of EntityRestService that work on items: the comma list of
    item names a request may carry (getItemList), the error annotation of a
    work item after a failed save (addErrorMessage), and the merge of an
    incoming entity into the stored one before it is saved (putEntity). */
module EntityRest {

  import opened Wrappers
  import opened Values
  import opened Text
  import opened Items
  import opened ItemCollections
  import opened Plugins

  // ---------------------------------------------------------------------
  // getItemList
  // ---------------------------------------------------------------------

  /** The item names of a comma list: null for null or "", otherwise the
      tokens between commas, untrimmed and in order, empty ones dropped. */
  function ItemList(items: Option<string>): (r: Option<seq<string>>)
    ensures r.None? <==> items.None? || items.value == ""
    ensures r.Some? ==> forall i :: 0 <= i < |r.value| ==> r.value[i] != [] && ',' !in r.value[i]
  {
    if items.None? || items.value == "" then None else Some(Tokens(items.value, ','))
  }

  /** getItemList: the tokens a StringTokenizer hands out one by one. */
  method GetItemList(items: Option<string>) returns (r: Option<seq<string>>)
    ensures r == ItemList(items)
  {
    if items.None? || items.value == "" {
      return None;
    }
    var v: seq<string> := [];
    var st := new StringTokenizer(items.value, ',');
    var more := st.HasMoreTokens();
    while more
      invariant st.Valid() && st.text == items.value && st.delim == ','
      invariant more <==> st.Remaining() != []
      invariant v + st.Remaining() == Tokens(items.value, ',')
      decreases |st.Remaining()|
    {
      ghost var rest := st.Remaining();
      var t := st.NextToken();
      assert rest == [t] + st.Remaining();
      v := v + [t];
      more := st.HasMoreTokens();
    }
    assert st.Remaining() == [];
    assert v + [] == v;
    r := Some(v);
  }

  /** A list of non-empty names without commas, joined by commas, is read
      back as the same list; the empty list joins to "", read as null. */
  lemma ItemListOfJoin(names: seq<string>)
    requires forall i :: 0 <= i < |names| ==> names[i] != [] && ',' !in names[i]
    ensures names != [] ==> ItemList(Some(Join(names, ','))) == Some(names)
    ensures names == [] ==> ItemList(Some(Join(names, ','))).None?
  {
    TokensOfJoin(names, ',');
    if names != [] {
      assert Join(names, ',') != [] by {
        assert names == [names[0]] + names[1..];
        JoinNonEmpty(names);
      }
    }
  }

  /** The join of a non-empty list of non-empty names is not empty. */
  lemma JoinNonEmpty(names: seq<string>)
    requires names != [] && names[0] != []
    ensures |Join(names, ',')| >= |names[0]|
  {
    JoinStartsWith(names);
  }

  /** The join begins with the first name. */
  lemma JoinStartsWith(names: seq<string>)
    requires names != []
    ensures |Join(names, ',')| >= |names[0]| && Join(names, ',')[..|names[0]|] == names[0]
  {
  }

  /** The names read from a list are its text with the commas taken out: no
      character other than a comma is lost, added or reordered. */
  lemma ItemListKeepsText(s: string)
    requires s != ""
    ensures Concat(ItemList(Some(s)).value) == Without(s, ',')
  {
    ConcatTokens(s, ',');
  }

  /** A list of commas only is read as an empty list, not as null. */
  lemma ItemListOfCommas(s: string)
    requires s != "" && forall i :: 0 <= i < |s| ==> s[i] == ','
    ensures ItemList(Some(s)) == Some([])
  {
    TokensOfDelimiters(s, ',');
  }

  // ---------------------------------------------------------------------
  // addErrorMessage
  // ---------------------------------------------------------------------

  /** The exceptions a save can end with. AccessDeniedException is a checked
      exception of the workflow engine, carrying an error code; every
      unchecked one is a Runtime, with an optional cause; Checked stands for
      any other checked exception. putEntity declares no checked exception,
      so a save it calls never raises a Checked one at the top level: there
      Checked is meaningful only as the cause of a Runtime. */
  datatype Exception =
    | AccessDenied(errorCode: Option<string>, message: Option<string>)
    | Runtime(message: Option<string>, cause: Option<Exception>)
    | Checked(message: Option<string>)

  /** The items the error annotation writes. */
  const ErrorCodeItem: string := "$error_code"
  const ErrorMessageItem: string := "$error_message"

  lemma ErrorItemKeys()
    ensures Key(ErrorCodeItem) == ErrorCodeItem && Key(ErrorMessageItem) == ErrorMessageItem
  {
    PlainNameIsKey(ErrorCodeItem);
    PlainNameIsKey(ErrorMessageItem);
  }

  /** The exception addErrorMessage looks at: a runtime exception with a
      cause is replaced by that cause, which is cast to RuntimeException, so
      a checked cause makes the cast fail. */
  function Unwrapped(e: Exception): (r: Result<Exception>)
    ensures r.Throws? <==> e.Runtime? && e.cause.Some? && !e.cause.value.Runtime?
    ensures r.Throws? ==> r.error == ClassCastException
    ensures r.Ok? ==> r.value == e || (e.Runtime? && e.cause == Some(r.value))
    ensures r.Ok? ==> (r.value.AccessDenied? <==> e.AccessDenied?)
  {
    if e.Runtime? && e.cause.Some? then
      if e.cause.value.Runtime? then Ok(e.cause.value) else Throws(ClassCastException)
    else Ok(e)
  }

  /** A string that may be null, as the value it is written as. */
  function TextValue(s: Option<string>): (v: Value)
    ensures s.None? <==> v == Null
    ensures s.Some? ==> v == Str(s.value)
  {
    if s.Some? then Str(s.value) else Null
  }

  /** The work item after addErrorMessage, or the exception of its cast. */
  function ErrorAnnotated(m: Items, e: Exception): (r: Result<Items>)
    ensures r.Throws? <==> Unwrapped(e).Throws?
    ensures ValidItems(m) && r.Ok? ==> ValidItems(r.value)
  {
    match Unwrapped(e)
    case Throws(err) => Throws(err)
    case Ok(x) =>
      if x.AccessDenied? then
        Ok(Replace(Replace(m, ErrorCodeItem, Single(TextValue(x.errorCode))), ErrorMessageItem, Single(TextValue(x.message))))
      else Ok(m)
  }

  /** An access denial writes its code and message; a null code or message
      removes the item instead, and no other item changes. */
  lemma AccessDeniedAnnotates(m: Items, code: Option<string>, message: Option<string>)
    ensures var r := ErrorAnnotated(m, AccessDenied(code, message));
      && r.Ok?
      && (code.Some? ==> Get(r.value, ErrorCodeItem) == [Str(code.value)])
      && (code.None? ==> !Has(r.value, ErrorCodeItem))
      && (message.Some? ==> Get(r.value, ErrorMessageItem) == [Str(message.value)])
      && (message.None? ==> !Has(r.value, ErrorMessageItem))
      && forall k :: k != ErrorCodeItem && k != ErrorMessageItem ==> Agree(m, r.value, k)
  {
    ErrorItemKeys();
    var c := Replace(m, ErrorCodeItem, Single(TextValue(code)));
    var r := Replace(c, ErrorMessageItem, Single(TextValue(message)));
    assert Get(r, ErrorCodeItem) == Get(c, ErrorCodeItem) && Has(r, ErrorCodeItem) == Has(c, ErrorCodeItem);
  }

  /** A runtime exception never annotates the work item: it is left as it
      is, unless the exception has a checked cause (an access denial among
      them), whose cast throws. */
  lemma RuntimeNeverAnnotates(m: Items, message: Option<string>, cause: Option<Exception>)
    ensures var r := ErrorAnnotated(m, Runtime(message, cause));
      && (cause.Some? && !cause.value.Runtime? ==> r == Throws(ClassCastException))
      && (cause.None? || cause.value.Runtime? ==> r == Ok(m))
  {
  }

  /** addErrorMessage: the work item is changed as ErrorAnnotated says, or
      left as it is when the cast throws. */
  method AddErrorMessage(e: Exception, workitem: ItemCollection) returns (o: Outcome)
    requires workitem.Valid()
    modifies workitem
    ensures workitem.Valid()
    ensures ErrorAnnotated(old(workitem.hash), e).Ok? ==>
              o == Pass && workitem.hash == ErrorAnnotated(old(workitem.hash), e).value
    ensures ErrorAnnotated(old(workitem.hash), e).Throws? ==>
              o == Fail(ClassCastException) && workitem.hash == old(workitem.hash)
  {
    var pe := e;
    if pe.Runtime? && pe.cause.Some? {
      if !pe.cause.value.Runtime? {
        return Fail(ClassCastException);
      }
      pe := pe.cause.value;
    }
    if pe.AccessDenied? {
      workitem.ReplaceItemValue(Some(ErrorCodeItem), Single(TextValue(pe.errorCode)));
      workitem.ReplaceItemValue(Some(ErrorMessageItem), Single(TextValue(pe.message)));
    }
    o := Pass;
  }

  // ---------------------------------------------------------------------
  // putEntity
  // ---------------------------------------------------------------------

  /** The contents handed to the save: the incoming items over those of the
      stored instance when there is one, without the two error items. */
  function Merged(incoming: Items, current: Option<Items>): (r: Items)
    ensures !Has(r, ErrorCodeItem) && !Has(r, ErrorMessageItem)
    ensures ValidItems(incoming) && (current.Some? ==> ValidItems(current.value)) ==> ValidItems(r)
  {
    var base := if current.Some? then current.value + incoming else incoming;
    Remove(Remove(base, ErrorCodeItem), ErrorMessageItem)
  }

  /** Every incoming item is saved as it came; the stored instance keeps each
      item the request does not name; without a stored instance nothing but
      the incoming items is saved. The two error items are the exception. */
  lemma MergeContents(incoming: Items, current: Option<Items>, name: string)
    requires Key(name) != ErrorCodeItem && Key(name) != ErrorMessageItem
    ensures Has(incoming, name) ==> Get(Merged(incoming, current), name) == Get(incoming, name)
    ensures !Has(incoming, name) && current.Some? ==> Agree(current.value, Merged(incoming, current), Key(name))
    ensures current.None? ==> Agree(incoming, Merged(incoming, current), Key(name))
  {
    ErrorItemKeys();
  }

  /** What the save of the entity service does: the stored entity, or the
      exception it throws. */
  datatype Saved = Stored(entity: Items) | Raised(e: Exception)

  /** The HTTP responses of putEntity: 401 for a caller without manager
      access, 406 without a body for a request that is not a work item, 406
      with the entity when it carries an error code, and 200 otherwise. */
  datatype Response = Unauthorized | NotAcceptable | Rejected(entity: Items) | Accepted(entity: Items)

  /** The response for an entity, by its error code. */
  function Respond(entity: Items): (r: Response)
    ensures r.Rejected? <==> Has(entity, ErrorCodeItem)
    ensures r.Rejected? || r.Accepted?
    ensures r.entity == entity
  {
    if Has(entity, ErrorCodeItem) then Rejected(entity) else Accepted(entity)
  }

  /** putEntity: the response, or the exception addErrorMessage lets escape.
      `load` stands for the entity service's lookup by `$uniqueid`. */
  function PutResult(manager: bool, incoming: Option<Items>, load: string -> Option<Items>, save: Items -> Saved): (r: Result<Response>)
  {
    if !manager then Ok(Unauthorized)
    else if incoming.None? then Ok(NotAcceptable)
    else
      var w := Merged(incoming.value, load(UniqueId(incoming.value)));
      match save(w)
      case Stored(entity) => Ok(Respond(entity))
      case Raised(e) =>
        match ErrorAnnotated(w, e)
        case Throws(err) => Throws(err)
        case Ok(a) => Ok(Respond(a))
  }

  /** A save that fails for lack of access is answered with 406 and the
      merged entity carrying the denial's error code. */
  lemma DeniedSaveRejected(incoming: Items, load: string -> Option<Items>, save: Items -> Saved, code: string, message: Option<string>)
    requires save(Merged(incoming, load(UniqueId(incoming)))) == Raised(AccessDenied(Some(code), message))
    ensures var r := PutResult(true, Some(incoming), load, save);
      && r.Ok? && r.value.Rejected?
      && Get(r.value.entity, ErrorCodeItem) == [Str(code)]
  {
    var w := Merged(incoming, load(UniqueId(incoming)));
    AccessDeniedAnnotates(w, Some(code), message);
    ErrorItemKeys();
  }

  /** A save that fails with a runtime exception without a cause is answered
      with 200 and the unsaved merged entity: the error items were removed
      before the save and nothing writes them back. */
  lemma RuntimeFailureAccepted(incoming: Items, load: string -> Option<Items>, save: Items -> Saved, message: Option<string>)
    requires save(Merged(incoming, load(UniqueId(incoming)))) == Raised(Runtime(message, None))
    ensures PutResult(true, Some(incoming), load, save) == Ok(Accepted(Merged(incoming, load(UniqueId(incoming)))))
  {
    RuntimeNeverAnnotates(Merged(incoming, load(UniqueId(incoming))), message, None);
  }

  /** The entity service hands back valid collections. */
  ghost predicate ValidStore(load: string -> Option<Items>) {
    forall id :: load(id).Some? ==> ValidItems(load(id).value)
  }

  /** The merge and clean-up step of putEntity: a stored instance, when
      there is one, absorbs the incoming items through replaceAllItems and
      takes the place of the incoming collection; then the error items are
      removed from whichever collection goes on to be saved. */
  method MergeInstance(incoming: ItemCollection, current: Option<Items>) returns (workitem: ItemCollection)
    requires incoming.Valid()
    requires current.Some? ==> ValidItems(current.value)
    modifies incoming
    ensures workitem.Valid()
    ensures workitem.hash == Merged(old(incoming.hash), current)
    ensures current.None? ==> workitem == incoming
    ensures current.Some? ==> fresh(workitem) && incoming.hash == old(incoming.hash)
  {
    workitem := incoming;
    if current.Some? {
      var instance := new ItemCollection.FromMap(current.value);
      instance.ReplaceAllItems(workitem.hash);
      workitem := instance;
    }
    workitem.RemoveItem(ErrorCodeItem);
    workitem.RemoveItem(ErrorMessageItem);
  }

  /** putEntity, with the role check, the XML conversion (null when the body
      is not a work item), the lookup and the save given. The incoming
      collection is the one cleaned, saved and annotated when nothing is
      stored under its id; otherwise a collection built from the stored
      instance absorbs its items and the incoming one is left as it is. */
  method PutEntity(manager: bool, incoming: ItemCollection?, load: string -> Option<Items>, save: Items -> Saved)
    returns (r: Result<Response>)
    requires incoming != null ==> incoming.Valid()
    requires ValidStore(load)
    modifies incoming
    ensures r == PutResult(manager, if incoming == null then None else Some(old(incoming.hash)), load, save)
  {
    if !manager {
      return Ok(Unauthorized);
    }
    if incoming == null {
      return Ok(NotAcceptable);
    }
    var current := load(UniqueId(incoming.hash));
    var workitem := MergeInstance(incoming, current);
    var saved := save(workitem.hash);
    match saved {
      case Stored(entity) =>
        r := Ok(Respond(entity));
      case Raised(e) =>
        var o := AddErrorMessage(e, workitem);
        if o.Fail? {
          return Throws(o.error);
        }
        r := Ok(Respond(workitem.hash));
    }
  }
}

=== FILE: item_collection.dfy ===
/** The ItemCollection class: its `hash` field and the methods that update it
    in place. Every write is proved to leave `hash` exactly as the value-level
    definition in module Items says, and to keep the collection valid. */
module ItemCollections {

  import opened Wrappers
  import opened Values
  import opened Items
  import Text

  /** The lower-cased names of a set of item names. */
  ghost function KeysOf(names: set<string>): set<string> {
    set n | n in names :: Key(n)
  }

  /** No two names of the map differ only in case. */
  ghost predicate NoCaseClash(src: map<string, seq<Value>>) {
    forall a, b :: a in src && b in src && Key(a) == Key(b) ==> a == b
  }

  /** The contents replaceAllItems leaves for a source whose names are
      already lower-case and whose lists hold no null: the old contents
      overridden by the source. */
  lemma OverrideOfLowerSource(m: Items, r: Items, src: map<string, seq<Value>>)
    requires ValidItems(src)
    requires forall k :: k !in KeysOf(src.Keys) ==> Agree(m, r, k)
    requires forall s :: s in src ==> Key(s) in r && r[Key(s)] == NonNull(src[s])
    ensures r == m + src
  {
    forall k | k in src
      ensures Key(k) == k
    {
      Text.LowerOfLower(k);
    }
    assert KeysOf(src.Keys) == src.Keys;
    forall k | k in src
      ensures k in r && r[k] == src[k]
    {
      NonNullOfNullFree(src[k]);
    }
  }

  /** The state of replaceAllItems part-way: `writer` gives for each item
      written so far the entry that wrote it last, every other item is as in
      `m`, and the entries still in `rest` have not been written. */
  ghost predicate Written(m: Items, r: Items, src: map<string, seq<Value>>, writer: map<string, string>, rest: set<string>)
  {
    && rest <= src.Keys
    && (forall k :: k !in writer ==> Agree(m, r, k))
    && (forall k :: k in writer ==> writer[k] in src && Key(writer[k]) == k)
    && (forall k :: k in writer ==> k in r && r[k] == NonNull(src[writer[k]]))
    && (forall t :: t in src && t !in rest ==> Key(t) in writer)
    && (forall k :: k in writer ==> writer[k] !in rest)
  }

  /** Writing one more entry of the source keeps Written. */
  lemma WriteOneEntry(m: Items, r: Items, src: map<string, seq<Value>>, writer: map<string, string>, rest: set<string>, s: string)
    requires Written(m, r, src, writer, rest) && s in rest
    ensures Written(m, Replace(r, s, ListOf(src[s])), src, writer[Key(s) := s], rest - {s})
  {
    WriteList(r, s, src[s], false);
  }

  /** What replaceAllItems has done once every entry of the source has been
      written, given for each written item the entry that wrote it last. */
  lemma ReplaceAllContents(m: Items, r: Items, src: map<string, seq<Value>>, writer: map<string, string>)
    requires forall k :: k !in writer ==> Agree(m, r, k)
    requires forall k :: k in writer ==> writer[k] in src && Key(writer[k]) == k
    requires forall k :: k in writer ==> k in r && r[k] == NonNull(src[writer[k]])
    requires forall t :: t in src ==> Key(t) in writer
    ensures forall k :: k !in KeysOf(src.Keys) ==> Agree(m, r, k)
    ensures forall s :: s in src ==> Has(r, s)
    ensures NoCaseClash(src) ==> forall s :: s in src ==> Get(r, s) == NonNull(src[s])
    ensures ValidItems(src) ==> r == m + src
  {
    forall k | k in writer
      ensures k in KeysOf(src.Keys)
    {
      assert Key(writer[k]) in KeysOf(src.Keys);
    }
    if NoCaseClash(src) {
      forall s | s in src
        ensures Get(r, s) == NonNull(src[s])
      {
        assert writer[Key(s)] == s;
      }
    }
    if ValidItems(src) {
      forall s | s in src
        ensures Key(s) in r && r[Key(s)] == NonNull(src[s])
      {
        Text.LowerOfLower(s);
        assert writer[Key(s)] == s;
      }
      OverrideOfLowerSource(m, r, src);
    }
  }

  /** The path stripping of addFile: cut at the last backslash, then at the
      last slash, when the name has one. */
  method BaseName(fileName: string) returns (name: string)
    ensures name == FileName(fileName)
  {
    name := fileName;
    if '\\' in name {
      name := Text.AfterLast(name, '\\');
    }
    if '/' in name {
      name := Text.AfterLast(name, '/');
    }
  }

  /** Written into an empty collection, the names of a map leave exactly
      their lower-cased names as keys. */
  lemma KeysAfterReplaceAll(r: Items, src: map<string, seq<Value>>)
    requires forall k :: k !in KeysOf(src.Keys) ==> Agree(map[], r, k)
    requires forall s :: s in src ==> Has(r, s)
    ensures r.Keys == KeysOf(src.Keys)
  {
  }

  class ItemCollection {
    var hash: Items

    ghost predicate Valid()
      reads this
    {
      ValidItems(hash)
    }

    /** An empty collection. */
    constructor ()
      ensures Valid() && hash == map[]
    {
      hash := map[];
    }

    /** ItemCollection(Map): every entry of the map written with
        replaceItemValue, so the new collection holds what ReplaceAllItems
        leaves in an empty one; a valid map is taken over as it is. */
    constructor FromMap(src: map<string, seq<Value>>)
      ensures Valid()
      ensures hash.Keys == KeysOf(src.Keys)
      ensures NoCaseClash(src) ==> forall s :: s in src ==> Get(hash, s) == NonNull(src[s])
      ensures ValidItems(src) ==> hash == src
    {
      hash := map[];
      new;
      ReplaceAllItems(src);
      KeysAfterReplaceAll(hash, src);
      assert map[] + src == src;
    }

    /** setItemValue: the one write path of the collection. */
    method SetItemValue(name: Option<string>, input: Input, append: bool)
      requires Valid()
      modifies this
      ensures Valid()
      ensures hash == SetItem(old(hash), name, input, append)
    {
      if name.None? {
        return;
      }
      var key := Text.Lower(name.value);
      Text.LowerIdempotent(name.value);
      if input.Single? && (input.v == Null || !IsSerializable(input.v)) {
        RemoveItem(key);
        return;
      }
      var list: seq<Value>;
      if input.ListOf? {
        list := NonNull(input.vs);
      } else {
        list := [input.v];
      }
      if append {
        var current := Get(hash, key);
        hash := hash[key := current + list];
      } else {
        assert [] + list == list;
        hash := hash[key := list];
      }
    }

    /** replaceItemValue */
    method ReplaceItemValue(name: Option<string>, input: Input)
      requires Valid()
      modifies this
      ensures Valid()
      ensures hash == SetItem(old(hash), name, input, false)
    {
      SetItemValue(name, input, false);
    }

    /** appendItemValue */
    method AppendItemValue(name: Option<string>, input: Input)
      requires Valid()
      modifies this
      ensures Valid()
      ensures hash == SetItem(old(hash), name, input, true)
    {
      SetItemValue(name, input, true);
    }

    /** removeItem */
    method RemoveItem(name: string)
      requires Valid()
      modifies this
      ensures Valid()
      ensures hash == Remove(old(hash), name)
    {
      var key := Text.Lower(name);
      hash := hash - {key};
    }

    /** replaceAllItems: every entry of the map is written with replaceItemValue,
        in the map's own iteration order. Items not named in the map keep their
        value and every named item is present. When no two names differ only
        in case, each named item holds its own entry's list without nulls, and
        for a valid source map the new contents are the old ones overridden by
        the source. */
    method ReplaceAllItems(src: map<string, seq<Value>>)
      requires Valid()
      modifies this
      ensures Valid()
      ensures forall k :: k !in KeysOf(src.Keys) ==> Agree(old(hash), hash, k)
      ensures forall s :: s in src ==> Has(hash, s)
      ensures NoCaseClash(src) ==> forall s :: s in src ==> Get(hash, s) == NonNull(src[s])
      ensures ValidItems(src) ==> hash == old(hash) + src
    {
      var rest := src.Keys;
      // for each item written so far, the entry that wrote it last
      ghost var writer: map<string, string> := map[];
      while rest != {}
        invariant Valid() && Written(old(hash), hash, src, writer, rest)
        decreases |rest|
      {
        var s :| s in rest;
        WriteOneEntry(old(hash), hash, src, writer, rest, s);
        ReplaceItemValue(Some(s), ListOf(src[s]));
        writer := writer[Key(s) := s];
        rest := rest - {s};
      }
      ReplaceAllContents(old(hash), hash, src, writer);
    }

    /** clone(List): a new collection holding only the listed items, each with
        this collection's list for it; no list (null) and the empty list give
        an empty collection. This collection is not changed. */
    method Clone(names: Option<seq<string>>) returns (c: ItemCollection)
      requires Valid()
      ensures fresh(c) && c.Valid()
      ensures names.None? ==> c.hash == map[]
      ensures names.Some? ==> c.hash == CloneItems(hash, names.value)
    {
      c := new ItemCollection();
      if names.Some? && |names.value| > 0 {
        var ns := names.value;
        for i := 0 to |ns|
          invariant c.Valid()
          invariant c.hash == CloneItems(hash, ns[..i])
        {
          c.ReplaceItemValue(Some(ns[i]), ListOf(Get(hash, ns[i])));
          assert ns[..i + 1][..i] == ns[..i];
        }
        assert ns[..|ns|] == ns;
      }
    }

    /** The map held by the `$file` item, as Files reads it. */
    method CurrentFiles() returns (r: Result<map<string, FileEntry>>)
      requires Valid()
      ensures r == Files(hash)
    {
      var files := Get(hash, FileItem);
      if |files| > 0 {
        if !files[0].FileMap? {
          return Throws(ClassCastException);
        }
        r := Ok(files[0].files);
      } else {
        r := Ok(map[]);
      }
    }

    /** addFile: Pass with the `$file` item updated as WithFile says, or
        the ClassCastException it raises with nothing changed. */
    method AddFile(data: Option<seq<bv8>>, fileName: string, contentType: Option<string>) returns (o: Outcome)
      requires Valid()
      modifies this
      ensures Valid()
      ensures WithFile(old(hash), data, fileName, contentType).Ok? ==>
                o == Pass && hash == WithFile(old(hash), data, fileName, contentType).value
      ensures WithFile(old(hash), data, fileName, contentType).Throws? ==>
                o == Fail(ClassCastException) && hash == old(hash)
    {
      if data.None? {
        return Pass;
      }
      var name := BaseName(fileName);
      var ct := if contentType.None? || contentType.value == "" then UnknownContentType else contentType.value;
      var current := CurrentFiles();
      if current.Throws? {
        return Fail(ClassCastException);
      }
      var fileMap := current.value;
      FileAdded(hash, data.value, fileName, contentType, fileMap);
      fileMap := fileMap[name := FileEntry(ct, data.value)];
      ReplaceItemValue(Some(FileItem), Single(FileMap(fileMap)));
      o := Pass;
    }

    /** removeFile: Pass with the named entry dropped from the `$file` item as
        Items.RemoveFile says, or its ClassCastException with nothing changed. */
    method RemoveFile(fileName: string) returns (o: Outcome)
      requires Valid()
      modifies this
      ensures Valid()
      ensures WithoutFile(old(hash), fileName).Ok? ==>
                o == Pass && hash == WithoutFile(old(hash), fileName).value
      ensures WithoutFile(old(hash), fileName).Throws? ==>
                o == Fail(ClassCastException) && hash == old(hash)
    {
      var files := Get(hash, FileItem);
      if |files| > 0 {
        if !files[0].FileMap? {
          return Fail(ClassCastException);
        }
        var fileMap := files[0].files - {fileName};
        ReplaceItemValue(Some(FileItem), Single(FileMap(fileMap)));
      }
      o := Pass;
    }

    /** getFileNames: every name of the `$file` map exactly once, in the map's
        iteration order; an empty list when there is no `$file` item, and the
        ClassCastException of a first value that is not a file map. */
    method GetFileNames() returns (r: Result<seq<string>>)
      ensures r.Throws? <==> Files(hash).Throws?
      ensures r.Ok? ==> forall n :: n in r.value <==> n in Files(hash).value
      ensures r.Ok? ==> |r.value| == |Files(hash).value|
      ensures r.Ok? ==> forall i, j :: 0 <= i < j < |r.value| ==> r.value[i] != r.value[j]
    {
      var files := Get(hash, FileItem);
      var names: seq<string> := [];
      if |files| > 0 {
        if !files[0].FileMap? {
          return Throws(ClassCastException);
        }
        var rest := files[0].files.Keys;
        while rest != {}
          invariant rest <= files[0].files.Keys
          invariant forall n :: n in files[0].files ==> (n in names <==> n !in rest)
          invariant forall n :: n in names ==> n in files[0].files
          invariant |names| + |rest| == |files[0].files|
          invariant forall i, j :: 0 <= i < j < |names| ==> names[i] != names[j]
          decreases |rest|
        {
          var n :| n in rest;
          names := names + [n];
          rest := rest - {n};
        }
      }
      r := Ok(names);
    }
  }
}

=== FILE: items.dfy ===
/** The contents of an ItemCollection as a value: a map from lower-case item
    name to the list of values of that item, with the reads and the writes the
    class performs on it (ItemCollection.java). The class in item_collection.dfy
    is proved to change its map exactly as the functions here say. */
module Items {

  import opened Wrappers
  import opened Numbers
  import opened Values
  import opened Text

  /** The `hash` field of an ItemCollection. */
  type Items = map<string, seq<Value>>

  /** What every write of ItemCollection keeps true: names are lower case and
      no stored list holds a null. */
  predicate ValidItems(m: Items) {
    forall k :: k in m ==> IsLower(k) && Null !in m[k]
  }

  /** The key an item name is stored and looked up under. */
  function Key(name: string): string {
    Lower(name)
  }

  /** Item k is present in both maps with the same list, or absent from both. */
  predicate Agree(m: Items, m': Items, k: string) {
    (k in m <==> k in m') && (k in m ==> m[k] == m'[k])
  }

  // ---------------------------------------------------------------------
  // Reads
  // ---------------------------------------------------------------------

  /** hasItem: the lower-cased name is a key, whatever its list holds. */
  predicate Has(m: Items, name: string) {
    Key(name) in m
  }

  /** getItemValue: the list stored under the lower-cased name; an absent item
      reads as the empty list instead of failing, and a valid collection never
      yields a null. */
  function Get(m: Items, name: string): (r: seq<Value>)
    ensures !Has(m, name) ==> r == []
    ensures Has(m, name) ==> r == m[Key(name)]
    ensures ValidItems(m) ==> Null !in r
  {
    if Key(name) in m then m[Key(name)] else []
  }

  /** Reads do not depend on the case of the name. */
  lemma ReadsIgnoreCase(m: Items, a: string, b: string)
    requires Key(a) == Key(b)
    ensures Has(m, a) == Has(m, b) && Get(m, a) == Get(m, b)
  {
  }

  // ---------------------------------------------------------------------
  // Writes
  // ---------------------------------------------------------------------

  /** setItemValue, the helper behind replaceItemValue and appendItemValue.
      A null name changes nothing. Otherwise only the item under the
      lower-cased name changes: it is removed when the value is null or not
      serialisable, and it is set to the normalised value (appended to the
      current list when `append` holds) in every other case. */
  function SetItem(m: Items, name: Option<string>, input: Input, append: bool): (r: Items)
    ensures name.None? ==> r == m
    ensures name.Some? ==> forall k :: k != Key(name.value) ==> Agree(m, r, k)
    ensures name.Some? ==> (Has(r, name.value) <==> Normalise(input).Some?)
    ensures name.Some? && Normalise(input).Some? ==>
              Get(r, name.value) == (if append then Get(m, name.value) else []) + Normalise(input).value
    ensures ValidItems(m) ==> ValidItems(r)
  {
    match name
    case None => m
    case Some(n) =>
      match Normalise(input)
      case None => m - {Key(n)}
      case Some(vs) => m[Key(n) := (if append then Get(m, n) else []) + vs]
  }

  /** replaceItemValue with a non-null name. */
  function Replace(m: Items, name: string, input: Input): Items {
    SetItem(m, Some(name), input, false)
  }

  /** appendItemValue with a non-null name. */
  function Append(m: Items, name: string, input: Input): Items {
    SetItem(m, Some(name), input, true)
  }

  /** Writing a list stores its non-null elements under the lower-cased name. */
  lemma WriteList(m: Items, name: string, vs: seq<Value>, append: bool)
    ensures SetItem(m, Some(name), ListOf(vs), append) == m[Key(name) := (if append then Get(m, name) else []) + NonNull(vs)]
  {
  }

  /** removeItem: the item under the lower-cased name is gone, nothing else changes. */
  function Remove(m: Items, name: string): (r: Items)
    ensures !Has(r, name)
    ensures forall k :: k != Key(name) ==> Agree(m, r, k)
    ensures ValidItems(m) ==> ValidItems(r)
  {
    m - {Key(name)}
  }

  /** Writing null, or an object that is not serialisable (an ItemCollection
      for one), by replace or by append, removes the item. */
  lemma WriteOfNullRemoves(m: Items, name: string, v: Value)
    requires v == Null || !IsSerializable(v)
    ensures Replace(m, name, Single(v)) == Remove(m, name)
    ensures Append(m, name, Single(v)) == Remove(m, name)
    ensures !Has(Replace(m, name, Single(v)), name)
  {
  }

  /** After a replace, the item reads back as the normalised value, whatever
      the case of the name used to write and to read it. */
  lemma ReplaceReadsBack(m: Items, name: string, other: string, input: Input)
    requires Key(other) == Key(name) && Normalise(input).Some?
    ensures Has(Replace(m, name, input), other)
    ensures Get(Replace(m, name, input), other) == Normalise(input).value
  {
  }

  /** On an absent item, appending is replacing. */
  lemma AppendToAbsentIsReplace(m: Items, name: string, input: Input)
    requires !Has(m, name)
    ensures Append(m, name, input) == Replace(m, name, input)
  {
  }

  /** Concatenation regroups. */
  lemma ConcatAssoc<T>(x: seq<T>, y: seq<T>, z: seq<T>)
    ensures x + y + z == x + (y + z)
  {
  }

  /** A second update of the same key hides the first. */
  lemma Overwrite<K, V>(m: map<K, V>, k: K, v: V, w: V)
    ensures m[k := v][k := w] == m[k := w]
  {
  }

  /** Two appends of lists are one append of the concatenated list: the stored
      list is the old list followed by the new non-null values, in order. */
  lemma {:induction false} AppendAppend(m: Items, name: string, a: seq<Value>, b: seq<Value>)
    ensures Append(Append(m, name, ListOf(a)), name, ListOf(b)) == Append(m, name, ListOf(a + b))
  {
    var k := Key(name);
    var vs := Get(m, name);
    var m1 := m[k := vs + NonNull(a)];
    WriteList(m, name, a, true);
    assert Get(m1, name) == vs + NonNull(a);
    WriteList(m1, name, b, true);
    NonNullAppend(a, b);
    ConcatAssoc(vs, NonNull(a), NonNull(b));
    Overwrite(m, k, vs + NonNull(a), vs + NonNull(a + b));
    WriteList(m, name, a + b, true);
  }

  // ---------------------------------------------------------------------
  // Typed readers
  // ---------------------------------------------------------------------

  /** getItemValueString: "" for an absent or empty item, otherwise the text
      of the first value. */
  function GetString(m: Items, name: string): (r: string)
    ensures Get(m, name) == [] ==> r == ""
    ensures Get(m, name) != [] && Get(m, name)[0].Str? ==> r == Get(m, name)[0].s
    ensures Get(m, name) != [] && Get(m, name)[0].Int? ==> r == IntToString(Get(m, name)[0].i)
    ensures Get(m, name) != [] && Get(m, name)[0].Long? ==> r == IntToString(Get(m, name)[0].l)
    ensures Get(m, name) != [] && Get(m, name)[0].Bool? ==> (r == "true" <==> Get(m, name)[0].b) && (r == "false" <==> !Get(m, name)[0].b)
  {
    var vs := Get(m, name);
    if vs == [] then "" else ToText(vs[0])
  }

  /** getItemValueInteger: the text of the first value read as a number and
      truncated to an int; 0 for an absent item and for text that is not a
      number. An Integer reads back as itself, a Long is clamped to the int
      range, and a Boolean, a Date or a file map gives 0. */
  function GetInteger(m: Items, name: string): (r: Int32)
    ensures Get(m, name) == [] ==> r == 0
    ensures Get(m, name) != [] && Get(m, name)[0].Int? ==> r == Get(m, name)[0].i
    ensures Get(m, name) != [] && Get(m, name)[0].Long? ==> r == SaturateInt(Get(m, name)[0].l)
    ensures Get(m, name) != [] && (Get(m, name)[0].Bool? || Get(m, name)[0].Date? || Get(m, name)[0].FileMap?) ==> r == 0
    ensures Get(m, name) != [] && Get(m, name)[0].Str? ==>
      var n := ParseDecimal(Trim(Get(m, name)[0].s));
      (n.Some? ==> r == SaturateInt(n.value)) && (n.None? ==> r == 0)
  {
    var vs := Get(m, name);
    if vs == [] then 0
    else
      NumberRendering(vs[0]);
      match DoubleIntValue(ToText(vs[0]))
      case Some(x) => x
      case None => 0
  }

  /** getItemValueLong: Long.parseLong of the text of the first value; 0 for an
      absent item and for text that is not a long literal (surrounding blanks
      included). */
  function GetLong(m: Items, name: string): (r: Int64)
    ensures Get(m, name) == [] ==> r == 0
    ensures Get(m, name) != [] && Get(m, name)[0].Int? ==> r == Get(m, name)[0].i
    ensures Get(m, name) != [] && Get(m, name)[0].Long? ==> r == Get(m, name)[0].l
    ensures Get(m, name) != [] && (Get(m, name)[0].Bool? || Get(m, name)[0].Date? || Get(m, name)[0].FileMap?) ==> r == 0
    ensures Get(m, name) != [] && Get(m, name)[0].Str? ==>
      var n := ParseDecimal(Get(m, name)[0].s);
      (n.Some? && MinLong <= n.value <= MaxLong ==> r == n.value) &&
      (n.None? || n.value < MinLong || MaxLong < n.value ==> r == 0)
  {
    var vs := Get(m, name);
    if vs == [] then 0
    else
      NumberRendering(vs[0]);
      match ParseLong(ToText(vs[0]))
      case Some(x) => x
      case None => 0
  }

  /** getItemValueBoolean: Boolean.valueOf of the text of the first value, true
      exactly when that text is "true" in any case; false for an absent item. */
  function GetBoolean(m: Items, name: string): (r: bool)
    ensures Get(m, name) == [] ==> !r
    ensures Get(m, name) != [] && Get(m, name)[0].Bool? ==> r == Get(m, name)[0].b
    ensures Get(m, name) != [] && Get(m, name)[0].Str? ==> (r <==> Lower(Get(m, name)[0].s) == "true")
    ensures Get(m, name) != [] && (Get(m, name)[0].Int? || Get(m, name)[0].Long? || Get(m, name)[0].Date? || Get(m, name)[0].FileMap?) ==> !r
  {
    var vs := Get(m, name);
    if vs == [] then false
    else
      NumberRendering(vs[0]);
      Lower(ToText(vs[0])) == "true"
  }

  /** getItemValueDate: the first value when it is a Date, null otherwise. */
  function GetDate(m: Items, name: string): (r: Option<int>)
    ensures r.Some? <==> Get(m, name) != [] && Get(m, name)[0].Date?
    ensures r.Some? ==> r.value == Get(m, name)[0].time
  {
    var vs := Get(m, name);
    if vs != [] && vs[0].Date? then Some(vs[0].time) else None
  }

  /** What the readers depend on in the text of each kind of value. */
  lemma NumberRendering(v: Value)
    ensures v.Int? ==> DoubleIntValue(ToText(v)) == Some(v.i) && ParseLong(ToText(v)) == Some(v.i as Int64)
    ensures v.Long? ==> DoubleIntValue(ToText(v)) == Some(SaturateInt(v.l)) && ParseLong(ToText(v)) == Some(v.l)
    ensures v.Bool? || v.Date? || v.FileMap? ==> DoubleIntValue(ToText(v)).None? && ParseLong(ToText(v)).None?
    ensures v.Bool? ==> (Lower(ToText(v)) == "true" <==> v.b)
    ensures v.Int? || v.Long? || v.Date? || v.FileMap? ==> Lower(ToText(v)) != "true"
  {
    match v
    case Int(i) =>
      ParseIntOfIntToString(i);
      NumberNotTrue(i);
    case Long(l) =>
      ParseLongOfIntToString(l);
      NumberNotTrue(l);
    case Bool(b) => BoolRendering(b);
    case Date(time) => DateRendering(time);
    case FileMap(_) =>
      NotANumber(ToText(v));
    case _ =>
  }

  lemma NumberNotTrue(i: int)
    ensures Lower(IntToString(i)) != "true"
  {
    var t := IntToString(i);
    assert Lower(t)[0] == LowerChar(t[0]);
  }

  lemma BoolRendering(b: bool)
    ensures var t := if b then "true" else "false";
      DoubleIntValue(t).None? && ParseLong(t).None? && (Lower(t) == "true" <==> b)
  {
    var t := if b then "true" else "false";
    NotANumber(t);
    if b {
      assert Lower(t) == "true";
    } else {
      assert Lower(t)[0] == 'f';
    }
  }

  lemma DateRendering(time: int)
    ensures var t := ToText(Date(time));
      DoubleIntValue(t).None? && ParseLong(t).None? && Lower(t) != "true"
  {
    var t := ToText(Date(time));
    assert t[0] == 'D' && t[|t| - 1] == ')';
    NotANumber(t);
    assert |Lower(t)| > 4;
  }

  /** Each typed reader reads back what a single-value replace stored. */
  lemma TypedReadsBack(m: Items, name: string, v: Value)
    requires v != Null && IsSerializable(v)
    ensures v.Str? ==> GetString(Replace(m, name, Single(v)), name) == v.s
    ensures v.Int? ==> GetInteger(Replace(m, name, Single(v)), name) == v.i
    ensures v.Long? ==> GetLong(Replace(m, name, Single(v)), name) == v.l
    ensures v.Bool? ==> GetBoolean(Replace(m, name, Single(v)), name) == v.b
    ensures v.Date? ==> GetDate(Replace(m, name, Single(v)), name) == Some(v.time)
  {
    assert Get(Replace(m, name, Single(v)), name) == [v];
  }

  /** The decimal text of an int, stored as a string, reads back as that
      number through getItemValueInteger and getItemValueLong. */
  lemma NumberTextReadsBack(m: Items, name: string, i: Int32)
    ensures GetInteger(Replace(m, name, Single(Str(IntToString(i)))), name) == i
    ensures GetLong(Replace(m, name, Single(Str(IntToString(i)))), name) == i
  {
    var t := IntToString(i);
    ReplaceReadsBack(m, name, name, Single(Str(t)));
    ParseOfIntToString(i);
    Text.TrimUntrimmed(t);
  }

  /** Stored text that starts with neither a sign nor a digit reads as 0. */
  lemma OtherTextReadsZero(m: Items, name: string, t: string)
    requires t != [] && !IsDigit(t[0]) && t[0] != '-' && t[0] != '+'
    requires !Text.IsTrimmed(t[0]) && !Text.IsTrimmed(t[|t| - 1])
    ensures GetInteger(Replace(m, name, Single(Str(t))), name) == 0
    ensures GetLong(Replace(m, name, Single(Str(t))), name) == 0
  {
    ReplaceReadsBack(m, name, name, Single(Str(t)));
    assert Get(Replace(m, name, Single(Str(t))), name) == [Str(t)];
    Text.TrimUntrimmed(t);
    assert ParseDecimal(t).None?;
  }

  // ---------------------------------------------------------------------
  // clone(List)
  // ---------------------------------------------------------------------

  /** The map of `clone(itemNames)`: an empty collection into which each
      listed item is written in turn with the list this collection holds for it. */
  function CloneItems(m: Items, names: seq<string>): Items
    decreases |names|
  {
    if names == [] then map[]
    else
      var n := names[|names| - 1];
      Replace(CloneItems(m, names[..|names| - 1]), n, ListOf(Get(m, n)))
  }

  /** The clone holds exactly the listed items, under their lower-cased names. */
  lemma {:induction false} CloneItemsKeys(m: Items, names: seq<string>)
    ensures CloneItems(m, names).Keys == set n | n in names :: Key(n)
    decreases |names|
  {
    if names != [] {
      var prefix := names[..|names| - 1];
      var last := names[|names| - 1];
      CloneItemsKeys(m, prefix);
      WriteList(CloneItems(m, prefix), last, Get(m, last), false);
      KeysOfLast(names);
    }
  }

  /** The keys of a list of names are those of all but its last name, and
      the last name's. */
  lemma KeysOfLast(names: seq<string>)
    requires names != []
    ensures (set n | n in names :: Key(n)) == (set n | n in names[..|names| - 1] :: Key(n)) + {Key(names[|names| - 1])}
  {
    assert names == names[..|names| - 1] + [names[|names| - 1]];
  }

  /** Each listed item of the clone holds this collection's list for it (an
      absent one as an empty item). */
  lemma {:induction false} CloneItemsValues(m: Items, names: seq<string>)
    ensures forall n :: n in names ==> Key(n) in CloneItems(m, names) && CloneItems(m, names)[Key(n)] == NonNull(Get(m, n))
    decreases |names|
  {
    if names != [] {
      var prefix := names[..|names| - 1];
      var last := names[|names| - 1];
      CloneItemsValues(m, prefix);
      var c := CloneItems(m, prefix);
      var r := CloneItems(m, names);
      var k := Key(last);
      assert r == Replace(c, last, ListOf(Get(m, last)));
      assert Normalise(ListOf(Get(m, last))) == Some(NonNull(Get(m, last)));
      assert r == c[k := [] + NonNull(Get(m, last))];
      assert [] + NonNull(Get(m, last)) == NonNull(Get(m, last));
      forall n | n in names
        ensures Key(n) in r && r[Key(n)] == NonNull(Get(m, n))
      {
        if Key(n) == k {
          assert Get(m, n) == Get(m, last);
        } else {
          assert n in prefix by {
            assert names == prefix + [last];
          }
          assert r[Key(n)] == c[Key(n)];
        }
      }
    }
  }

  // ---------------------------------------------------------------------
  // File attachments
  // ---------------------------------------------------------------------

  const FileItem: string := "$file"
  const UnknownContentType: string := "application/unknown"

  /** The file name addFile stores: everything up to the last backslash, then
      everything up to the last slash, removed. */
  function FileName(name: string): (r: string)
    ensures '\\' !in r && '/' !in r
    ensures IsSuffix(r, name)
    ensures '\\' !in name && '/' !in name ==> r == name
  {
    var a := AfterLast(name, '\\');
    var r := AfterLast(a, '/');
    FileNameFacts(name, a, r);
    r
  }

  /** The two cuts of FileName leave a suffix of the name without either
      separator, and a name without separators unchanged. */
  lemma FileNameFacts(name: string, a: string, r: string)
    requires a == AfterLast(name, '\\') && r == AfterLast(a, '/')
    ensures '\\' !in r && '/' !in r
    ensures IsSuffix(r, name)
    ensures '\\' !in name && '/' !in name ==> r == name
  {
    SuffixOfSuffix(name, a, r);
    NotInSuffix(a, r, '\\');
  }

  /** A character missing from a is missing from each suffix of a. */
  lemma NotInSuffix(a: string, r: string, c: char)
    requires c !in a && IsSuffix(r, a)
    ensures c !in r
  {
    forall i | 0 <= i < |r|
      ensures r[i] != c
    {
      assert r[i] == a[|a| - |r| + i];
    }
  }

  /** The content type addFile stores: null or "" become "application/unknown". */
  function ContentType(contentType: Option<string>): (r: string)
    ensures r != ""
    ensures contentType.Some? && contentType.value != "" ==> r == contentType.value
    ensures contentType.None? || contentType.value == "" ==> r == UnknownContentType
  {
    if contentType.None? || contentType.value == "" then UnknownContentType else contentType.value
  }

  /** The file map held by the `$file` item: empty when the item is absent or
      empty, a ClassCastException when its first value is not a file map. */
  function Files(m: Items): (r: Result<map<string, FileEntry>>)
    ensures Get(m, FileItem) == [] ==> r == Ok(map[])
    ensures r.Throws? <==> Get(m, FileItem) != [] && !Get(m, FileItem)[0].FileMap?
  {
    var vs := Get(m, FileItem);
    if vs == [] then Ok(map[])
    else match vs[0]
      case FileMap(fs) => Ok(fs)
      case _ => Throws(ClassCastException)
  }

  /** addFile: nothing for null data; otherwise the `$file` item becomes a single
      file map in which the stripped file name holds the content type and the
      data, an earlier entry of that name is overwritten and every other
      entry is kept. No other item changes. */
  function WithFile(m: Items, data: Option<seq<bv8>>, fileName: string, contentType: Option<string>): (r: Result<Items>)
    ensures data.None? ==> r == Ok(m)
    ensures data.Some? ==> (r.Throws? <==> Files(m).Throws?)
    ensures data.Some? && r.Ok? ==>
              Get(r.value, FileItem) == [FileMap(Files(m).value[FileName(fileName) := FileEntry(ContentType(contentType), data.value)])]
    ensures r.Ok? ==> forall k :: k != FileItem ==> Agree(m, r.value, k)
    ensures r.Ok? && ValidItems(m) ==> ValidItems(r.value)
  {
    match data
    case None => Ok(m)
    case Some(bytes) =>
      var files :- Files(m);
      var stored := files[FileName(fileName) := FileEntry(ContentType(contentType), bytes)];
      StoreFiles(m, stored);
      Ok(Replace(m, FileItem, Single(FileMap(stored))))
  }

  /** Storing a file map in the `$file` item makes it the item's one value
      and changes no other item. */
  lemma StoreFiles(m: Items, files: map<string, FileEntry>)
    ensures var r := Replace(m, FileItem, Single(FileMap(files)));
      && Get(r, FileItem) == [FileMap(files)]
      && (forall k :: k != FileItem ==> Agree(m, r, k))
      && (ValidItems(m) ==> ValidItems(r))
  {
    assert Key(FileItem) == FileItem;
  }

  /** What WithFile stores once the file map has been read. */
  lemma FileAdded(m: Items, data: seq<bv8>, fileName: string, contentType: Option<string>, files: map<string, FileEntry>)
    requires Files(m) == Ok(files)
    ensures WithFile(m, Some(data), fileName, contentType)
            == Ok(Replace(m, FileItem, Single(FileMap(files[FileName(fileName) := FileEntry(ContentType(contentType), data)]))))
  {
  }

  /** removeFile: when the `$file` item holds a file map, the entry of that
      exact name is dropped from it; an absent or empty item is left alone. */
  function WithoutFile(m: Items, fileName: string): (r: Result<Items>)
    ensures Get(m, FileItem) == [] ==> r == Ok(m)
    ensures r.Throws? <==> Files(m).Throws?
    ensures r.Ok? && Get(m, FileItem) != [] ==>
              Get(r.value, FileItem) == [FileMap(Files(m).value - {fileName})]
    ensures r.Ok? ==> forall k :: k != FileItem ==> Agree(m, r.value, k)
    ensures r.Ok? && ValidItems(m) ==> ValidItems(r.value)
  {
    var vs := Get(m, FileItem);
    if vs == [] then Ok(m)
    else
      var files :- Files(m);
      StoreFiles(m, files - {fileName});
      Ok(Replace(m, FileItem, Single(FileMap(files - {fileName}))))
  }

  /** Adding a file and then removing it by its stored name leaves no entry
      of that name. */
  lemma AddThenRemoveFile(m: Items, data: seq<bv8>, fileName: string, contentType: Option<string>)
    requires WithFile(m, Some(data), fileName, contentType).Ok?
    ensures WithoutFile(WithFile(m, Some(data), fileName, contentType).value, FileName(fileName)).Ok?
    ensures FileName(fileName) !in Files(WithoutFile(WithFile(m, Some(data), fileName, contentType).value, FileName(fileName)).value).value
  {
  }
}

=== FILE: numbers.dfy ===
/** Java's fixed-width integers and the decimal conversions the workflow code
    uses: Integer.toString/Long.toString, Integer.parseInt, Long.parseLong and
    `new Double(s).intValue()` on integer literals. */
module Numbers {

  import opened Wrappers
  import Text

  const MinInt: int := -0x8000_0000
  const MaxInt: int := 0x7FFF_FFFF
  const MinLong: int := -0x8000_0000_0000_0000
  const MaxLong: int := 0x7FFF_FFFF_FFFF_FFFF

  /** A java `int`. */
  type Int32 = x: int | -0x8000_0000 <= x <= 0x7FFF_FFFF

  /** A java `long`. */
  type Int64 = x: int | -0x8000_0000_0000_0000 <= x <= 0x7FFF_FFFF_FFFF_FFFF

  predicate IsDigit(c: char) {
    '0' <= c <= '9'
  }

  predicate AllDigits(s: string) {
    forall i :: 0 <= i < |s| ==> IsDigit(s[i])
  }

  function DigitChar(n: nat): (c: char)
    requires n < 10
    ensures IsDigit(c)
  {
    ('0' as int + n) as char
  }

  /** The decimal digits of n, most significant first, without leading zeros. */
  function NatToString(n: nat): (r: string)
    ensures r != [] && AllDigits(r)
  {
    if n < 10 then [DigitChar(n)] else NatToString(n / 10) + [DigitChar(n % 10)]
  }

  /** Integer.toString and Long.toString: a minus sign for a negative value,
      then the digits of its magnitude. */
  function IntToString(i: int): (r: string)
    ensures r != [] && (r[0] == '-' <==> i < 0)
    ensures r[0] == '-' || IsDigit(r[0])
    ensures IsDigit(r[|r| - 1])
  {
    if i < 0 then "-" + NatToString(-i) else NatToString(i)
  }

  /** The value of a string of decimal digits. */
  function DigitsValue(s: string): nat
    requires AllDigits(s)
  {
    if s == [] then 0 else DigitsValue(s[..|s| - 1]) * 10 + ((s[|s| - 1] as int) - ('0' as int))
  }

  /** An optional sign followed by at least one decimal digit, nothing else. */
  function ParseDecimal(s: string): (r: Option<int>)
    ensures r.Some? ==> s != [] && (r.value < 0 ==> s[0] == '-')
  {
    if s == [] then None
    else if s[0] == '-' || s[0] == '+' then
      var ds := s[1..];
      if ds != [] && AllDigits(ds) then Some(if s[0] == '-' then 0 - DigitsValue(ds) as int else DigitsValue(ds)) else None
    else if AllDigits(s) then Some(DigitsValue(s))
    else None
  }

  lemma {:induction false} DigitsOfNat(n: nat)
    ensures DigitsValue(NatToString(n)) == n
  {
    if n >= 10 {
      var s := NatToString(n);
      assert s[..|s| - 1] == NatToString(n / 10);
      DigitsOfNat(n / 10);
    }
  }

  /** Parsing the decimal rendering of any integer gives the integer back. */
  lemma ParseOfIntToString(i: int)
    ensures ParseDecimal(IntToString(i)) == Some(i)
  {
    if i < 0 {
      var s := IntToString(i);
      assert s[1..] == NatToString(-i);
      DigitsOfNat(-i);
    } else {
      DigitsOfNat(i);
    }
  }

  /** Long.parseLong: None stands for the NumberFormatException thrown for
      text that is not a signed decimal literal or lies outside the long range. */
  function ParseLong(s: string): Option<Int64> {
    match ParseDecimal(s)
    case Some(x) => if MinLong <= x <= MaxLong then Some(x) else None
    case None => None
  }

  /** Integer.parseInt (also `new Integer(s)`), likewise for the int range. */
  function ParseInt(s: string): Option<Int32> {
    match ParseDecimal(s)
    case Some(x) => if MinInt <= x <= MaxInt then Some(x) else None
    case None => None
  }

  /** The int nearest to x: Java's double-to-int conversion saturates. */
  function SaturateInt(x: int): (r: Int32)
    ensures MinInt <= x <= MaxInt ==> r == x
    ensures x > MaxInt ==> r == MaxInt
    ensures x < MinInt ==> r == MinInt
  {
    if x > MaxInt then MaxInt else if x < MinInt then MinInt else x
  }

  /** `new Double(s).intValue()` for text that, once trimmed, is a signed
      decimal integer literal; None for any other text. */
  function DoubleIntValue(s: string): Option<Int32> {
    match ParseDecimal(Text.Trim(s))
    case Some(x) => Some(SaturateInt(x))
    case None => None
  }

  /** The rendering of an int survives Long.parseLong and Integer.parseInt. */
  lemma ParseIntOfIntToString(i: Int32)
    ensures ParseInt(IntToString(i)) == Some(i)
    ensures ParseLong(IntToString(i)) == Some(i as Int64)
    ensures DoubleIntValue(IntToString(i)) == Some(i)
  {
    ParseOfIntToString(i);
    Text.TrimUntrimmed(IntToString(i));
  }

  /** Likewise a long survives Long.parseLong, and `new Double(s).intValue()`
      clamps it to the int range. */
  lemma ParseLongOfIntToString(l: Int64)
    ensures ParseLong(IntToString(l)) == Some(l)
    ensures DoubleIntValue(IntToString(l)) == Some(SaturateInt(l))
  {
    ParseOfIntToString(l);
    Text.TrimUntrimmed(IntToString(l));
  }

  /** Text that starts with neither a sign nor a digit, and neither starts nor
      ends with a blank, is a number for none of the integer-literal parsers
      modelled here. */
  lemma NotANumber(s: string)
    requires s != [] && !IsDigit(s[0]) && s[0] != '-' && s[0] != '+'
    requires !Text.IsTrimmed(s[0]) && !Text.IsTrimmed(s[|s| - 1])
    ensures DoubleIntValue(s).None? && ParseLong(s).None? && ParseInt(s).None?
  {
    Text.TrimUntrimmed(s);
  }
}

=== FILE: plugins.dfy ===
/** What the workflow plugins share: the status a plugin run returns and the
    names of the workflow kernel's own items. */
module Plugins {

  import opened Text
  import opened Items

  /** The status codes of the Plugin interface. */
  datatype PluginStatus = PluginOk | PluginWarning

  /** Items the workflow kernel keeps on every work item. */
  const UniqueIdItem: string := "$uniqueid"
  const UniqueIdRefItem: string := "$uniqueidref"
  const ModelVersionItem: string := "$modelversion"
  const ProcessIdItem: string := "$processid"
  const ActivityIdItem: string := "$activityid"

  /** getUniqueID */
  function UniqueId(m: Items): string {
    GetString(m, UniqueIdItem)
  }

  /** A name without upper-case letters is its own key. */
  lemma PlainNameIsKey(name: string)
    requires forall i :: 0 <= i < |name| ==> name[i] < 'A' || 'Z' < name[i] < '\U{C0}'
    ensures Key(name) == name
  {
    assert IsLower(name);
    LowerOfLower(name);
  }

  /** The kernel's item names are already lower case, so each is its own key. */
  lemma KernelNameIsKey(name: string)
    requires name in [UniqueIdItem, UniqueIdRefItem, ModelVersionItem, ProcessIdItem, ActivityIdItem]
    ensures Key(name) == name
  {
    if name == UniqueIdItem {
      PlainNameIsKey(UniqueIdItem);
    } else if name == UniqueIdRefItem {
      PlainNameIsKey(UniqueIdRefItem);
    } else if name == ModelVersionItem {
      PlainNameIsKey(ModelVersionItem);
    } else if name == ProcessIdItem {
      PlainNameIsKey(ProcessIdItem);
    } else {
      PlainNameIsKey(ActivityIdItem);
    }
  }
}

=== FILE: split_and_join.dfy ===
/** The SplitAndJoinPlugin: it creates sub-process work items from the
    `subprocess_create` directives of an event, updates existing sub-processes
    from `subprocess_update`, updates the origin process from `origin_update`,
    and links origin and sub-processes through `$uniqueidref` and
    `txtworkitemref`. The workflow service and the directive parser are
    parameters (Services); what the plugin hands to processWorkItem is
    returned as a list of work items. */
module SplitAndJoin {

  import opened Wrappers
  import opened Text
  import opened Numbers
  import opened Values
  import opened Items
  import opened ItemCollections
  import opened Plugins

  const LinkItem: string := "txtworkitemref"
  const SubprocessCreate: string := "subprocess_create"
  const SubprocessUpdate: string := "subprocess_update"
  const OriginUpdate: string := "origin_update"

  /** The collaborators the plugin calls. */
  datatype Services = Services(
    parseItemStructure: string -> Option<Items>,  // ResultPlugin.parseItemStructure
    processWorkItem: Items -> Items,              // WorkflowService.processWorkItem
    getWorkListByRef: string -> seq<Items>,       // WorkflowService.getWorkListByRef
    getWorkItem: string -> Option<Items>,         // WorkflowService.getWorkItem
    find: (string, string) -> Option<bool>)       // Pattern.compile(p).matcher(s).find(); None: PatternSyntaxException

  // ---------------------------------------------------------------------
  // copyItemList
  // ---------------------------------------------------------------------

  /** The source item of a trimmed field: the trimmed text before the first
      '|', or the whole field when there is none. */
  function SourceName(field: string): (r: string)
    ensures '|' !in field ==> r == field
  {
    match IndexOf(field, '|')
    case None => field
    case Some(p) => Trim(field[..p])
  }

  /** The target item of a trimmed field: the trimmed text after the first
      '|', or the whole field when there is none. */
  function TargetName(field: string): (r: string)
    ensures '|' !in field ==> r == field
  {
    match IndexOf(field, '|')
    case None => field
    case Some(p) => Trim(field[p + 1..])
  }

  /** A field written "a|b" copies item a into item b, both names trimmed. */
  lemma RenamingField(a: string, b: string)
    requires '|' !in a
    ensures SourceName(a + "|" + b) == Trim(a)
    ensures TargetName(a + "|" + b) == Trim(b)
  {
    var f := a + "|" + b;
    assert f[|a|] == '|';
    assert IndexOf(f, '|') == Some(|a|) by {
      assert f[..|a|] == a;
    }
    assert f[..|a|] == a;
    assert f[|a| + 1..] == b;
  }

  /** The source and target item of one comma-separated token. */
  function Src(token: string): string {
    SourceName(Trim(token))
  }

  function Dst(token: string): string {
    TargetName(Trim(token))
  }

  /** The (source, target) item names of a list of tokens, in order. */
  function Fields(tokens: seq<string>): (r: seq<(string, string)>)
    ensures |r| == |tokens|
    decreases |tokens|
  {
    if tokens == [] then [] else [(Src(tokens[0]), Dst(tokens[0]))] + Fields(tokens[1..])
  }

  /** One field of copyItemList: the target item is replaced by the source's
      list for the source item. */
  function CopyField(field: (string, string), source: Items, target: Items): Items {
    Replace(target, field.1, ListOf(Get(source, field.0)))
  }

  /** The fields applied in order. */
  function CopyFields(fields: seq<(string, string)>, source: Items, target: Items): Items
    decreases |fields|
  {
    if fields == [] then target
    else CopyFields(fields[1..], source, CopyField(fields[0], source, target))
  }

  /** copyItemList(items, source, target) on the target's contents. */
  function CopyItems(items: string, source: Items, target: Items): Items {
    CopyFields(Fields(Tokens(items, ',')), source, target)
  }

  /** The fields of a list of tokens: those of its first token, then the rest. */
  lemma FieldsCons(tokens: seq<string>)
    requires tokens != []
    ensures Fields(tokens) == [(Src(tokens[0]), Dst(tokens[0]))] + Fields(tokens[1..])
  {
  }

  /** The first field of a list, then the rest. */
  lemma CopyFieldsCons(field: (string, string), fields: seq<(string, string)>, source: Items, target: Items)
    ensures CopyFields([field] + fields, source, target) == CopyFields(fields, source, CopyField(field, source, target))
  {
    assert ([field] + fields)[1..] == fields;
  }

  /** Copying the field of the first token, then the fields of the others,
      is copying the fields of all the tokens. */
  lemma CopyFirstField(token: string, rest: seq<string>, source: Items, before: Items, after: Items)
    requires after == CopyField((Src(token), Dst(token)), source, before)
    ensures CopyFields(Fields(rest), source, after) == CopyFields(Fields([token] + rest), source, before)
  {
    FieldsCons([token] + rest);
    assert ([token] + rest)[1..] == rest;
    CopyFieldsCons((Src(token), Dst(token)), Fields(rest), source, before);
  }

  /** The keys a list of fields writes. */
  function Written(fields: seq<(string, string)>): set<string>
    decreases |fields|
  {
    if fields == [] then {} else {Key(fields[0].1)} + Written(fields[1..])
  }

  /** A key no field writes is not among the written keys. */
  lemma {:induction false} NotWritten(fields: seq<(string, string)>, k: string)
    requires forall j :: 0 <= j < |fields| ==> Key(fields[j].1) != k
    ensures k !in Written(fields)
    decreases |fields|
  {
    if fields != [] {
      assert Key(fields[0].1) != k;
      forall j | 0 <= j < |fields[1..]|
        ensures Key(fields[1..][j].1) != k
      {
        assert fields[1..][j] == fields[j + 1];
      }
      NotWritten(fields[1..], k);
    }
  }

  /** Only the target items named in the list change, and the target stays valid. */
  lemma {:induction false} CopyFieldsFrame(fields: seq<(string, string)>, source: Items, target: Items)
    ensures forall k :: k !in Written(fields) ==> Agree(target, CopyFields(fields, source, target), k)
    ensures ValidItems(target) ==> ValidItems(CopyFields(fields, source, target))
    decreases |fields|
  {
    if fields != [] {
      var next := CopyField(fields[0], source, target);
      var r := CopyFields(fields[1..], source, next);
      assert CopyFields(fields, source, target) == r;
      CopyFieldsFrame(fields[1..], source, next);
      forall k | k !in Written(fields)
        ensures Agree(target, r, k)
      {
        assert k != Key(fields[0].1);
        assert Agree(target, next, k) && Agree(next, r, k);
      }
    }
  }

  /** No field after position i writes the same key as field i. */
  predicate LastWriter(fields: seq<(string, string)>, i: nat)
    requires i < |fields|
  {
    forall j :: i < j < |fields| ==> Key(fields[j].1) != Key(fields[i].1)
  }

  /** A field that no later field overwrites ends up holding the source's list
      for its source item; an item missing from the source gives an empty
      target item, not a skipped one. */
  lemma {:induction false} CopyFieldsLastWins(fields: seq<(string, string)>, source: Items, target: Items)
    requires ValidItems(source)
    ensures forall i :: 0 <= i < |fields| && LastWriter(fields, i) ==>
              Has(CopyFields(fields, source, target), fields[i].1) &&
              Get(CopyFields(fields, source, target), fields[i].1) == Get(source, fields[i].0)
    decreases |fields|
  {
    if fields != [] {
      var next := CopyField(fields[0], source, target);
      CopyFieldsLastWins(fields[1..], source, next);
      forall i | 0 <= i < |fields| && LastWriter(fields, i)
        ensures Has(CopyFields(fields, source, target), fields[i].1)
        ensures Get(CopyFields(fields, source, target), fields[i].1) == Get(source, fields[i].0)
      {
        if i == 0 {
          CopyFieldsHead(fields, source, target);
        } else {
          assert fields[i] == fields[1..][i - 1];
          assert LastWriter(fields[1..], i - 1);
        }
      }
    }
  }

  /** The first field's write survives when no later field writes its key. */
  lemma CopyFieldsHead(fields: seq<(string, string)>, source: Items, target: Items)
    requires ValidItems(source) && fields != [] && LastWriter(fields, 0)
    ensures Has(CopyFields(fields, source, target), fields[0].1)
    ensures Get(CopyFields(fields, source, target), fields[0].1) == Get(source, fields[0].0)
  {
    var next := CopyField(fields[0], source, target);
    var k := Key(fields[0].1);
    assert CopyFields(fields, source, target) == CopyFields(fields[1..], source, next);
    CopyFieldsFrame(fields[1..], source, next);
    forall j | 0 <= j < |fields[1..]|
      ensures Key(fields[1..][j].1) != k
    {
      assert fields[1..][j] == fields[j + 1];
    }
    NotWritten(fields[1..], k);
    NonNullOfNullFree(Get(source, fields[0].0));
    assert Get(next, fields[0].1) == Get(source, fields[0].0);
  }

  /** An item named once and missing from the source arrives as an empty item. */
  lemma CopyMissingItem(name: string, source: Items, target: Items)
    requires ValidItems(source) && !Has(source, name)
    requires name != [] && ',' !in name && '|' !in name && Trim(name) == name
    ensures Has(CopyItems(name, source, target), name)
    ensures Get(CopyItems(name, source, target), name) == []
  {
    TokensOfJoin([name], ',');
    assert Tokens(name, ',') == [name];
    assert Fields([name]) == [(name, name)] by {
      assert Src(name) == name && Dst(name) == name;
    }
    CopyFieldsLastWins([(name, name)], source, target);
  }

  // ---------------------------------------------------------------------
  // addWorkitemRef
  // ---------------------------------------------------------------------

  /** The reference list with a lone empty placeholder removed. */
  function WithoutPlaceholder(refs: seq<Value>): seq<Value> {
    if refs == [Str("")] then [] else refs
  }

  /** addWorkitemRef(id, workitem) on the work item's contents: the id is
      added to `txtworkitemref` unless it is already there. */
  function AddRef(m: Items, id: string): (r: Items)
    ensures Has(r, LinkItem) && Str(id) in Get(r, LinkItem)
    ensures forall k :: k != LinkItem ==> Agree(m, r, k)
    ensures ValidItems(m) ==> ValidItems(r)
  {
    var refs := WithoutPlaceholder(Get(m, LinkItem));
    LinkItemIsKey();
    if Str(id) in refs then m
    else
      NonNullAppend(refs, [Str(id)]);
      Replace(m, LinkItem, ListOf(refs + [Str(id)]))
  }

  lemma LinkItemIsKey()
    ensures Key(LinkItem) == LinkItem
  {
    assert IsLower(LinkItem);
    LowerOfLower(LinkItem);
  }

  /** A list without repeated elements. */
  predicate Distinct(vs: seq<Value>) {
    forall i, j :: 0 <= i < j < |vs| ==> vs[i] != vs[j]
  }

  /** Adding a reference twice is adding it once. */
  lemma AddRefIdempotent(m: Items, id: string)
    ensures AddRef(AddRef(m, id), id) == AddRef(m, id)
  {
    var r := AddRef(m, id);
    LinkItemIsKey();
    if Get(r, LinkItem) == [Str("")] {
      assert id == "";
      var refs: seq<Value> := [];
      assert WithoutPlaceholder(Get(r, LinkItem)) == refs;
      assert refs + [Str(id)] == [Str("")];
      assert NonNull([Str("")]) == [Str("")];
      assert r[LinkItem] == [Str("")];
      assert Replace(r, LinkItem, ListOf(refs + [Str(id)])) == r[LinkItem := [] + [Str("")]];
      assert [] + [Str("")] == [Str("")];
    }
  }

  /** A new id goes to the end of the list; the placeholder is dropped first. */
  lemma AddRefAppends(m: Items, id: string)
    requires ValidItems(m) && Str(id) !in WithoutPlaceholder(Get(m, LinkItem))
    ensures Get(AddRef(m, id), LinkItem) == WithoutPlaceholder(Get(m, LinkItem)) + [Str(id)]
    ensures Get(m, LinkItem) == [Str("")] ==> Get(AddRef(m, id), LinkItem) == [Str(id)]
  {
    LinkItemIsKey();
    NonNullOfNullFree(WithoutPlaceholder(Get(m, LinkItem)) + [Str(id)]);
  }

  /** An id already referenced leaves the work item as it is. */
  lemma AddRefPresent(m: Items, id: string)
    requires Str(id) in Get(m, LinkItem) && Get(m, LinkItem) != [Str("")]
    ensures AddRef(m, id) == m
  {
  }

  /** The reference list never gains a duplicate. */
  lemma AddRefDistinct(m: Items, id: string)
    requires ValidItems(m) && Distinct(Get(m, LinkItem))
    ensures Distinct(Get(AddRef(m, id), LinkItem))
  {
    if Str(id) !in WithoutPlaceholder(Get(m, LinkItem)) {
      AddRefAppends(m, id);
    }
  }

  /** Every non-empty reference already present stays present. */
  lemma AddRefKeeps(m: Items, id: string, x: string)
    requires x != "" && Str(x) in Get(m, LinkItem)
    ensures Str(x) in Get(AddRef(m, id), LinkItem)
  {
    LinkItemIsKey();
    var refs := WithoutPlaceholder(Get(m, LinkItem));
    assert Str(x) in refs;
    if Str(id) !in refs {
      assert Str(x) in refs + [Str(id)];
    }
  }

  // ---------------------------------------------------------------------
  // Building and updating work items from a directive
  // ---------------------------------------------------------------------

  /** `new Integer(s)`: NumberFormatException for text that is not an int. */
  function NewInteger(s: string): (r: Result<Int32>)
    ensures r.Ok? <==> ParseInt(s).Some?
    ensures r.Ok? ==> r.value == ParseInt(s).value
    ensures r.Throws? ==> r.error == NumberFormatException
  {
    match ParseInt(s)
    case Some(x) => Ok(x)
    case None => Throws(NumberFormatException)
  }

  /** The kernel items a new sub-process receives on top of the copied ones. */
  function SubprocessKeys(): set<string> {
    {ModelVersionItem, ProcessIdItem, ActivityIdItem, UniqueIdRefItem}
  }

  /** The four kernel items createSubprocesses writes, each replaced in turn. */
  function StampSubprocess(m: Items, version: string, processId: Int32, activityId: Int32, ref: string): (r: Items)
    ensures Get(r, ModelVersionItem) == [Str(version)]
    ensures Get(r, ProcessIdItem) == [Int(processId)]
    ensures Get(r, ActivityIdItem) == [Int(activityId)]
    ensures Get(r, UniqueIdRefItem) == [Str(ref)]
    ensures forall k :: k !in SubprocessKeys() ==> Agree(m, r, k)
    ensures ValidItems(m) ==> ValidItems(r)
  {
    var r1 := Replace(m, ModelVersionItem, Single(Str(version)));
    var r2 := Replace(r1, ProcessIdItem, Single(Int(processId)));
    var r3 := Replace(r2, ActivityIdItem, Single(Int(activityId)));
    var r4 := Replace(r3, UniqueIdRefItem, Single(Str(ref)));
    KernelNameIsKey(ModelVersionItem);
    KernelNameIsKey(ProcessIdItem);
    KernelNameIsKey(ActivityIdItem);
    KernelNameIsKey(UniqueIdRefItem);
    r4
  }

  /** The work item createSubprocesses hands to processWorkItem for one parsed
      directive (its contents are stated by NewSubprocessContents). A process
      id or activity id that is not an int raises NumberFormatException. */
  function NewSubprocess(origin: Items, definition: Items): (r: Result<Items>)
    ensures r.Throws? <==> ParseInt(GetString(definition, "processid")).None? || ParseInt(GetString(definition, "activityid")).None?
    ensures r.Throws? ==> r.error == NumberFormatException
  {
    var copied := CopyItems(GetString(definition, "items"), origin, map[]);
    var processId :- NewInteger(GetString(definition, "processid"));
    var activityId :- NewInteger(GetString(definition, "activityid"));
    Ok(StampSubprocess(copied, GetString(definition, "modelversion"), processId, activityId, UniqueId(origin)))
  }

  /** A new sub-process holds the listed items copied from the origin, then
      the directive's model version, process id and activity id, and the
      origin's unique id as `$uniqueidref`. */
  lemma NewSubprocessContents(origin: Items, definition: Items)
    requires NewSubprocess(origin, definition).Ok?
    ensures var r := NewSubprocess(origin, definition).value;
      && ValidItems(r)
      && Get(r, ModelVersionItem) == [Str(GetString(definition, "modelversion"))]
      && Get(r, ProcessIdItem) == [Int(ParseInt(GetString(definition, "processid")).value)]
      && Get(r, ActivityIdItem) == [Int(ParseInt(GetString(definition, "activityid")).value)]
      && Get(r, UniqueIdRefItem) == [Str(UniqueId(origin))]
      && forall k :: k !in SubprocessKeys() ==> Agree(CopyItems(GetString(definition, "items"), origin, map[]), r, k)
  {
    CopyFieldsFrame(Fields(Tokens(GetString(definition, "items"), ',')), origin, map[]);
  }

  /** Whether a work item matches a directive: its model version against the
      directive's model version pattern, and the text of its process id
      against the directive's process id pattern. */
  function Matches(env: Services, definition: Items, w: Items): (r: Result<bool>)
    ensures r.Throws? ==> r.error == PatternSyntaxException
    ensures r == Ok(true) <==>
      env.find(GetString(definition, "modelversion"), GetString(w, ModelVersionItem)) == Some(true) &&
      env.find(GetString(definition, "processid"), IntToString(GetInteger(w, ProcessIdItem))) == Some(true)
  {
    match env.find(GetString(definition, "modelversion"), GetString(w, ModelVersionItem))
    case None => Throws(PatternSyntaxException)
    case Some(false) => Ok(false)
    case Some(true) =>
      match env.find(GetString(definition, "processid"), IntToString(GetInteger(w, ProcessIdItem)))
      case None => Throws(PatternSyntaxException)
      case Some(b) => Ok(b)
  }

  /** A matching sub-process as updateSubprocesses hands it on: the listed
      items copied from the origin, then the directive's activity id. */
  function UpdatedSubprocess(sub: Items, origin: Items, definition: Items): (r: Result<Items>)
    ensures r.Throws? <==> ParseInt(GetString(definition, "activityid")).None?
    ensures r.Throws? ==> r.error == NumberFormatException
  {
    var copied := CopyItems(GetString(definition, "items"), origin, sub);
    var activityId :- NewInteger(GetString(definition, "activityid"));
    Ok(Replace(copied, ActivityIdItem, Single(Int(activityId))))
  }

  /** The directive's activity id wins over a copied `$activityid`; every
      other item is as copyItemList left it. */
  lemma UpdatedSubprocessContents(sub: Items, origin: Items, definition: Items)
    requires UpdatedSubprocess(sub, origin, definition).Ok?
    ensures var r := UpdatedSubprocess(sub, origin, definition).value;
      && Get(r, ActivityIdItem) == [Int(ParseInt(GetString(definition, "activityid")).value)]
      && (forall k :: k != ActivityIdItem ==> Agree(CopyItems(GetString(definition, "items"), origin, sub), r, k))
      && (ValidItems(sub) ==> ValidItems(r))
  {
    CopyFieldsFrame(Fields(Tokens(GetString(definition, "items"), ',')), origin, sub);
    KernelNameIsKey(ActivityIdItem);
  }

  /** A matching origin as updateOrigin hands it on: the directive's activity
      id first, then the listed items copied from the sub-process. */
  function UpdatedOrigin(origin: Items, sub: Items, definition: Items): (r: Result<Items>)
    ensures r.Throws? <==> ParseInt(GetString(definition, "activityid")).None?
    ensures r.Throws? ==> r.error == NumberFormatException
  {
    var activityId :- NewInteger(GetString(definition, "activityid"));
    Ok(CopyItems(GetString(definition, "items"), sub, Replace(origin, ActivityIdItem, Single(Int(activityId)))))
  }

  /** Here a copied `$activityid` wins over the directive's; items neither
      copied nor `$activityid` keep their value. */
  lemma UpdatedOriginContents(origin: Items, sub: Items, definition: Items)
    requires UpdatedOrigin(origin, sub, definition).Ok?
    ensures var r := UpdatedOrigin(origin, sub, definition).value;
      var written := Written(Fields(Tokens(GetString(definition, "items"), ',')));
      && (ActivityIdItem !in written ==> Get(r, ActivityIdItem) == [Int(ParseInt(GetString(definition, "activityid")).value)])
      && (forall k :: k != ActivityIdItem && k !in written ==> Agree(origin, r, k))
      && (ValidItems(origin) ==> ValidItems(r))
  {
    var activityId := ParseInt(GetString(definition, "activityid")).value;
    KernelNameIsKey(ActivityIdItem);
    var withActivity := Replace(origin, ActivityIdItem, Single(Int(activityId)));
    CopyFieldsFrame(Fields(Tokens(GetString(definition, "items"), ',')), sub, withActivity);
  }

  // ---------------------------------------------------------------------
  // The three directives
  // ---------------------------------------------------------------------

  /** How far a directive got: completed or the exception it raised, the
      origin's contents at that point, and the work items handed to
      processWorkItem in order. */
  datatype Progress = Progress(outcome: Outcome, origin: Items, handedOff: seq<Items>)

  /** The progress of the rest of a directive, after the given work items
      have been handed on. */
  function After(handedOff: seq<Items>, p: Progress): (r: Progress)
    ensures r.outcome == p.outcome && r.origin == p.origin
    ensures |r.handedOff| == |handedOff| + |p.handedOff|
    ensures p.handedOff == [] ==> r.handedOff == handedOff
  {
    Progress(p.outcome, p.origin, handedOff + p.handedOff)
  }

  lemma AfterStep(handedOff: seq<Items>, w: Items, p: Progress)
    ensures After(handedOff, Progress(p.outcome, p.origin, [w] + p.handedOff)) == After(handedOff + [w], p)
  {
    assert handedOff + ([w] + p.handedOff) == (handedOff + [w]) + p.handedOff;
  }

  lemma AfterNothing(p: Progress)
    ensures After([], p) == p
  {
    assert [] + p.handedOff == p.handedOff;
  }

  /** The same for the directives that do not change the origin. */
  datatype Handoff = Handoff(outcome: Outcome, handedOff: seq<Items>)

  /** The same as After, for a Handoff. */
  function Behind(handedOff: seq<Items>, h: Handoff): (r: Handoff)
    ensures r.outcome == h.outcome
    ensures |r.handedOff| == |handedOff| + |h.handedOff|
    ensures h.handedOff == [] ==> r.handedOff == handedOff
  {
    Handoff(h.outcome, handedOff + h.handedOff)
  }

  lemma BehindNothing(h: Handoff)
    ensures Behind([], h) == h
  {
    assert [] + h.handedOff == h.handedOff;
  }

  lemma BehindStep(handedOff: seq<Items>, ws: seq<Items>, h: Handoff)
    ensures Behind(handedOff, Handoff(h.outcome, ws + h.handedOff)) == Behind(handedOff + ws, h)
  {
    assert handedOff + (ws + h.handedOff) == (handedOff + ws) + h.handedOff;
  }

  /** createSubprocesses(definitions, origin): a blank definition (one whose
      trim() is empty, see Text.Trim) or one the parser rejects is skipped; every other one becomes a new sub-process
      that is handed to processWorkItem, and the unique id of the processed
      work item is added to the origin's `txtworkitemref`. The first
      exception ends the loop; the origin keeps the references added before. */
  function Create(defs: seq<Value>, origin: Items, env: Services): (p: Progress)
    requires Null !in defs
    ensures |p.handedOff| <= |defs|
    ensures p.outcome.Fail? ==> p.outcome.error in {ClassCastException, NumberFormatException}
    decreases |defs|
  {
    if defs == [] then Progress(Pass, origin, [])
    else if !defs[0].Str? then Progress(Fail(ClassCastException), origin, [])
    else if IsBlank(defs[0].s) || env.parseItemStructure(defs[0].s).None? then Create(defs[1..], origin, env)
    else match NewSubprocess(origin, env.parseItemStructure(defs[0].s).value)
      case Throws(e) => Progress(Fail(e), origin, [])
      case Ok(sub) =>
        var next := Create(defs[1..], AddRef(origin, UniqueId(env.processWorkItem(sub))), env);
        Progress(next.outcome, next.origin, [sub] + next.handedOff)
  }

  /** The inner loop of updateSubprocesses over the sub-processes that refer
      to the origin: each matching one is updated and handed on. */
  function UpdateEach(subs: seq<Items>, definition: Items, origin: Items, env: Services): (h: Handoff)
    ensures |h.handedOff| <= |subs|
    ensures h.outcome.Fail? ==> h.outcome.error in {NumberFormatException, PatternSyntaxException}
    decreases |subs|
  {
    if subs == [] then Handoff(Pass, [])
    else match Matches(env, definition, subs[0])
    case Throws(e) => Handoff(Fail(e), [])
    case Ok(false) => UpdateEach(subs[1..], definition, origin, env)
    case Ok(true) => match UpdatedSubprocess(subs[0], origin, definition)
      case Throws(e) => Handoff(Fail(e), [])
      case Ok(w) =>
        var next := UpdateEach(subs[1..], definition, origin, env);
        Handoff(next.outcome, [w] + next.handedOff)
  }

  /** updateSubprocesses(definitions, origin): for every definition that is
      neither blank nor rejected by the parser, the sub-processes referring to
      the origin are updated. The origin itself is not changed. */
  function Update(defs: seq<Value>, origin: Items, env: Services): (h: Handoff)
    requires Null !in defs
    ensures h.outcome.Fail? ==> h.outcome.error in {ClassCastException, NumberFormatException, PatternSyntaxException}
    decreases |defs|
  {
    if defs == [] then Handoff(Pass, [])
    else if !defs[0].Str? then Handoff(Fail(ClassCastException), [])
    else if IsBlank(defs[0].s) || env.parseItemStructure(defs[0].s).None? then Update(defs[1..], origin, env)
    else
      var h := UpdateEach(env.getWorkListByRef(UniqueId(origin)), env.parseItemStructure(defs[0].s).value, origin, env);
      if h.outcome.Fail? then h
      else
        var next := Update(defs[1..], origin, env);
        Handoff(next.outcome, h.handedOff + next.handedOff)
  }

  /** The loop of updateOrigin over the sub-process's `$uniqueidref` values:
      each one that names an existing, matching work item updates it. */
  function OriginEach(refs: seq<Value>, definition: Items, sub: Items, env: Services): (h: Handoff)
    requires Null !in refs
    ensures h.outcome.Fail? ==> h.outcome.error in {ClassCastException, NumberFormatException, PatternSyntaxException}
    decreases |refs|
  {
    if refs == [] then Handoff(Pass, [])
    else if !refs[0].Str? then Handoff(Fail(ClassCastException), [])
    else match env.getWorkItem(refs[0].s)
      case None => OriginEach(refs[1..], definition, sub, env)
      case Some(origin) =>
        match Matches(env, definition, origin)
        case Throws(e) => Handoff(Fail(e), [])
        case Ok(false) => OriginEach(refs[1..], definition, sub, env)
        case Ok(true) => match UpdatedOrigin(origin, sub, definition)
          case Throws(e) => Handoff(Fail(e), [])
          case Ok(w) =>
            var next := OriginEach(refs[1..], definition, sub, env);
            Handoff(next.outcome, [w] + next.handedOff)
  }

  /** updateOrigin(definition, subprocess): nothing for an empty definition;
      the parser's result is used without a null check, so a rejected
      definition raises NullPointerException. */
  function JoinOrigin(definition: string, sub: Items, env: Services): (h: Handoff)
    requires ValidItems(sub)
    ensures definition == "" ==> h == Handoff(Pass, [])
    ensures definition != "" && env.parseItemStructure(definition).None? ==> h == Handoff(Fail(NullPointerException), [])
  {
    if definition == "" then Handoff(Pass, [])
    else match env.parseItemStructure(definition)
      case None => Handoff(Fail(NullPointerException), [])
      case Some(pd) => OriginEach(Get(sub, UniqueIdRefItem), pd, sub, env)
  }

  /** run(documentContext, event) on the evaluated event result: the create,
      update and origin-update directives in that order, each only when its
      item is present, stopping at the first exception. */
  function RunSteps(evaluated: Items, context: Items, env: Services): (p: Progress)
    requires ValidItems(evaluated) && ValidItems(context)
  {
    var c := CreateDirective(evaluated, context, env);
    if c.outcome.Fail? then c
    else
      var h := LaterDirectives(evaluated, c.origin, env);
      Progress(h.outcome, c.origin, c.handedOff + h.handedOff)
  }

  /** The `subprocess_create` directive of run, when the event result has one. */
  function CreateDirective(evaluated: Items, context: Items, env: Services): (p: Progress)
    requires ValidItems(evaluated)
    ensures ValidItems(context) ==> ValidItems(p.origin)
    ensures forall k :: k != LinkItem ==> Agree(context, p.origin, k)
  {
    CreateFrame(Get(evaluated, SubprocessCreate), context, env);
    if Has(evaluated, SubprocessCreate) then Create(Get(evaluated, SubprocessCreate), context, env)
    else Progress(Pass, context, [])
  }

  /** The `subprocess_update` and `origin_update` directives of run, which
      leave the work item as the create directive left it. */
  function LaterDirectives(evaluated: Items, origin: Items, env: Services): (h: Handoff)
    requires ValidItems(evaluated) && ValidItems(origin)
  {
    var u := if Has(evaluated, SubprocessUpdate) then Update(Get(evaluated, SubprocessUpdate), origin, env)
             else Handoff(Pass, []);
    if u.outcome.Fail? then u
    else
      var o := if Has(evaluated, OriginUpdate) then JoinOrigin(GetString(evaluated, OriginUpdate), origin, env)
               else Handoff(Pass, []);
      Handoff(o.outcome, u.handedOff + o.handedOff)
  }

  // ---------------------------------------------------------------------
  // Properties of the directives
  // ---------------------------------------------------------------------

  /** The definition at the head of the list, when it is one createSubprocesses
      turns into a sub-process: a non-blank string the parser accepts. */
  predicate Parsed(defs: seq<Value>, env: Services)
  {
    defs != [] && defs[0].Str? && !IsBlank(defs[0].s) && env.parseItemStructure(defs[0].s).Some?
  }

  /** One step of Create over a skipped definition. */
  lemma CreateSkip(defs: seq<Value>, origin: Items, env: Services)
    requires Null !in defs && defs != [] && defs[0].Str? && !Parsed(defs, env)
    ensures Create(defs, origin, env) == Create(defs[1..], origin, env)
  {
  }

  /** One step of Create over a definition that yields a sub-process. */
  lemma CreateStep(defs: seq<Value>, origin: Items, env: Services)
    requires Null !in defs && Parsed(defs, env)
    requires NewSubprocess(origin, env.parseItemStructure(defs[0].s).value).Ok?
    ensures var sub := NewSubprocess(origin, env.parseItemStructure(defs[0].s).value).value;
      var next := Create(defs[1..], AddRef(origin, UniqueId(env.processWorkItem(sub))), env);
      Create(defs, origin, env) == Progress(next.outcome, next.origin, [sub] + next.handedOff)
  {
  }

  /** A step that raises leaves the origin as it is and hands nothing on. */
  lemma CreateStop(defs: seq<Value>, origin: Items, env: Services)
    requires Null !in defs && defs != []
    requires !defs[0].Str? || (Parsed(defs, env) && NewSubprocess(origin, env.parseItemStructure(defs[0].s).value).Throws?)
    ensures Create(defs, origin, env) ==
      Progress(Fail(if !defs[0].Str? then ClassCastException
                    else NewSubprocess(origin, env.parseItemStructure(defs[0].s).value).error), origin, [])
  {
  }

  /** Creating sub-processes changes no item of the origin but
      `txtworkitemref`, and keeps the origin valid. */
  lemma {:induction false} CreateFrame(defs: seq<Value>, origin: Items, env: Services)
    requires Null !in defs
    ensures forall k :: k != LinkItem ==> Agree(origin, Create(defs, origin, env).origin, k)
    ensures ValidItems(origin) ==> ValidItems(Create(defs, origin, env).origin)
    decreases |defs|
  {
    if defs == [] {
    } else if !defs[0].Str? {
      CreateStop(defs, origin, env);
    } else if !Parsed(defs, env) {
      CreateSkip(defs, origin, env);
      assert Null !in defs[1..];
      CreateFrame(defs[1..], origin, env);
    } else if NewSubprocess(origin, env.parseItemStructure(defs[0].s).value).Throws? {
      CreateStop(defs, origin, env);
    } else {
      var sub := NewSubprocess(origin, env.parseItemStructure(defs[0].s).value).value;
      var next := AddRef(origin, UniqueId(env.processWorkItem(sub)));
      CreateStep(defs, origin, env);
      assert Null !in defs[1..];
      CreateFrame(defs[1..], next, env);
      var r := Create(defs, origin, env).origin;
      assert r == Create(defs[1..], next, env).origin;
      forall k | k != LinkItem
        ensures Agree(origin, r, k)
      {
        assert Agree(origin, next, k) && Agree(next, r, k);
      }
    }
  }

  /** The unique id is not the link item, so adding references keeps it. */
  lemma UniqueIdOfAddRef(m: Items, id: string)
    ensures UniqueId(AddRef(m, id)) == UniqueId(m)
  {
    KernelNameIsKey(UniqueIdItem);
    assert UniqueIdItem != LinkItem;
  }

  /** Every sub-process handed on refers back to the origin through
      `$uniqueidref`. */
  lemma {:induction false} CreateRefersToOrigin(defs: seq<Value>, origin: Items, env: Services)
    requires Null !in defs
    ensures forall h :: h in Create(defs, origin, env).handedOff ==> Get(h, UniqueIdRefItem) == [Str(UniqueId(origin))]
    decreases |defs|
  {
    if defs == [] {
    } else if !defs[0].Str? {
      CreateStop(defs, origin, env);
    } else if !Parsed(defs, env) {
      CreateSkip(defs, origin, env);
      assert Null !in defs[1..];
      CreateRefersToOrigin(defs[1..], origin, env);
    } else if NewSubprocess(origin, env.parseItemStructure(defs[0].s).value).Throws? {
      CreateStop(defs, origin, env);
    } else {
      var pd := env.parseItemStructure(defs[0].s).value;
      var sub := NewSubprocess(origin, pd).value;
      var next := AddRef(origin, UniqueId(env.processWorkItem(sub)));
      CreateStep(defs, origin, env);
      NewSubprocessContents(origin, pd);
      assert Null !in defs[1..];
      CreateRefersToOrigin(defs[1..], next, env);
      UniqueIdOfAddRef(origin, UniqueId(env.processWorkItem(sub)));
    }
  }

  /** A non-empty reference in the origin's `txtworkitemref` stays there. */
  lemma {:induction false} CreateKeepsLinks(defs: seq<Value>, origin: Items, env: Services, x: string)
    requires Null !in defs && x != "" && Str(x) in Get(origin, LinkItem)
    ensures Str(x) in Get(Create(defs, origin, env).origin, LinkItem)
    decreases |defs|
  {
    if defs == [] {
    } else if !defs[0].Str? {
      CreateStop(defs, origin, env);
    } else if !Parsed(defs, env) {
      CreateSkip(defs, origin, env);
      assert Null !in defs[1..];
      CreateKeepsLinks(defs[1..], origin, env, x);
    } else if NewSubprocess(origin, env.parseItemStructure(defs[0].s).value).Throws? {
      CreateStop(defs, origin, env);
    } else {
      var sub := NewSubprocess(origin, env.parseItemStructure(defs[0].s).value).value;
      var id := UniqueId(env.processWorkItem(sub));
      CreateStep(defs, origin, env);
      AddRefKeeps(origin, id, x);
      assert Null !in defs[1..];
      CreateKeepsLinks(defs[1..], AddRef(origin, id), env, x);
    }
  }

  /** The origin ends up referring to every processed sub-process (whose
      unique id is not empty). */
  lemma {:induction false} CreateLinksSubprocesses(defs: seq<Value>, origin: Items, env: Services)
    requires Null !in defs
    ensures var p := Create(defs, origin, env);
      forall w :: w in p.handedOff && UniqueId(env.processWorkItem(w)) != "" ==>
        Str(UniqueId(env.processWorkItem(w))) in Get(p.origin, LinkItem)
    decreases |defs|, 1
  {
    if defs == [] {
    } else if !defs[0].Str? {
      CreateStop(defs, origin, env);
    } else if !Parsed(defs, env) {
      CreateSkip(defs, origin, env);
      assert Null !in defs[1..];
      CreateLinksSubprocesses(defs[1..], origin, env);
    } else if NewSubprocess(origin, env.parseItemStructure(defs[0].s).value).Throws? {
      CreateStop(defs, origin, env);
    } else {
      CreateLinksProcessed(defs, origin, env);
    }
  }

  /** CreateLinksSubprocesses when the first definition gives a sub-process. */
  lemma {:induction false} CreateLinksProcessed(defs: seq<Value>, origin: Items, env: Services)
    requires Null !in defs && defs != [] && defs[0].Str? && Parsed(defs, env)
    requires NewSubprocess(origin, env.parseItemStructure(defs[0].s).value).Ok?
    ensures var p := Create(defs, origin, env);
      forall w :: w in p.handedOff && UniqueId(env.processWorkItem(w)) != "" ==>
        Str(UniqueId(env.processWorkItem(w))) in Get(p.origin, LinkItem)
    decreases |defs|, 0
  {
    var sub := NewSubprocess(origin, env.parseItemStructure(defs[0].s).value).value;
    var id := UniqueId(env.processWorkItem(sub));
    var next := AddRef(origin, id);
    CreateStep(defs, origin, env);
    assert Null !in defs[1..];
    CreateLinksSubprocesses(defs[1..], next, env);
    if id != "" {
      CreateKeepsLinks(defs[1..], next, env, id);
    }
    LinksOfStep(sub, Create(defs[1..], next, env), env, Create(defs, origin, env));
  }

  /** A step that hands on sub before the rest keeps every handed-on
      sub-process linked, once sub itself is. */
  lemma LinksOfStep(sub: Items, q: Progress, env: Services, p: Progress)
    requires p == Progress(q.outcome, q.origin, [sub] + q.handedOff)
    requires UniqueId(env.processWorkItem(sub)) != "" ==>
      Str(UniqueId(env.processWorkItem(sub))) in Get(q.origin, LinkItem)
    requires forall w :: w in q.handedOff && UniqueId(env.processWorkItem(w)) != "" ==>
      Str(UniqueId(env.processWorkItem(w))) in Get(q.origin, LinkItem)
    ensures forall w :: w in p.handedOff && UniqueId(env.processWorkItem(w)) != "" ==>
      Str(UniqueId(env.processWorkItem(w))) in Get(p.origin, LinkItem)
  {
    forall w | w in p.handedOff && UniqueId(env.processWorkItem(w)) != ""
      ensures Str(UniqueId(env.processWorkItem(w))) in Get(p.origin, LinkItem)
    {
      if w != sub {
        assert w in q.handedOff;
      }
    }
  }

  /** One step of UpdateEach. */
  lemma UpdateEachStep(subs: seq<Items>, definition: Items, origin: Items, env: Services)
    requires subs != []
    ensures var next := UpdateEach(subs[1..], definition, origin, env);
      UpdateEach(subs, definition, origin, env) ==
        match Matches(env, definition, subs[0])
        case Throws(e) => Handoff(Fail(e), [])
        case Ok(false) => next
        case Ok(true) => match UpdatedSubprocess(subs[0], origin, definition)
          case Throws(e) => Handoff(Fail(e), [])
          case Ok(w) => Handoff(next.outcome, [w] + next.handedOff)
  {
  }

  /** One step of Update. */
  lemma UpdateStep(defs: seq<Value>, origin: Items, env: Services)
    requires Null !in defs && defs != [] && defs[0].Str?
    ensures Null !in defs[1..]
    ensures var next := Update(defs[1..], origin, env);
      Update(defs, origin, env) ==
        if IsBlank(defs[0].s) || env.parseItemStructure(defs[0].s).None? then next
        else
          var h := UpdateEach(env.getWorkListByRef(UniqueId(origin)), env.parseItemStructure(defs[0].s).value, origin, env);
          if h.outcome.Fail? then h else Handoff(next.outcome, h.handedOff + next.handedOff)
  {
  }

  /** One step of OriginEach. */
  lemma OriginEachStep(refs: seq<Value>, definition: Items, sub: Items, env: Services)
    requires Null !in refs && refs != [] && refs[0].Str?
    ensures Null !in refs[1..]
    ensures var next := OriginEach(refs[1..], definition, sub, env);
      var found := env.getWorkItem(refs[0].s);
      OriginEach(refs, definition, sub, env) ==
        if found.None? then next
        else match Matches(env, definition, found.value)
        case Throws(e) => Handoff(Fail(e), [])
        case Ok(false) => next
        case Ok(true) => match UpdatedOrigin(found.value, sub, definition)
          case Throws(e) => Handoff(Fail(e), [])
          case Ok(w) => Handoff(next.outcome, [w] + next.handedOff)
  {
  }

  /** Definitions that are all blank create nothing and change nothing. */
  lemma {:induction false} CreateSkipsBlank(defs: seq<Value>, origin: Items, env: Services)
    requires Null !in defs
    requires forall i :: 0 <= i < |defs| ==> defs[i].Str? && IsBlank(defs[i].s)
    ensures Create(defs, origin, env) == Progress(Pass, origin, [])
    decreases |defs|
  {
    if defs != [] {
      CreateSkip(defs, origin, env);
      assert Null !in defs[1..];
      CreateSkipsBlank(defs[1..], origin, env);
    }
  }

  /** Blank update definitions update nothing. */
  lemma {:induction false} UpdateSkipsBlank(defs: seq<Value>, origin: Items, env: Services)
    requires Null !in defs
    requires forall i :: 0 <= i < |defs| ==> defs[i].Str? && IsBlank(defs[i].s)
    ensures Update(defs, origin, env) == Handoff(Pass, [])
    decreases |defs|
  {
    if defs != [] {
      assert Update(defs, origin, env) == Update(defs[1..], origin, env);
      assert Null !in defs[1..];
      UpdateSkipsBlank(defs[1..], origin, env);
    }
  }

  /** An event result without any of the three directives does nothing. */
  lemma RunWithoutDirectives(evaluated: Items, context: Items, env: Services)
    requires ValidItems(evaluated) && ValidItems(context)
    requires !Has(evaluated, SubprocessCreate) && !Has(evaluated, SubprocessUpdate) && !Has(evaluated, OriginUpdate)
    ensures RunSteps(evaluated, context, env) == Progress(Pass, context, [])
  {
  }

  /** A run changes no item of the work item but `txtworkitemref`. */
  lemma RunFrame(evaluated: Items, context: Items, env: Services)
    requires ValidItems(evaluated) && ValidItems(context)
    ensures forall k :: k != LinkItem ==> Agree(context, RunSteps(evaluated, context, env).origin, k)
  {
  }

  // ---------------------------------------------------------------------
  // The plugin's methods
  // ---------------------------------------------------------------------

  /** The workflow service hands out ItemCollection objects, so every work
      item it returns satisfies the collection's invariant. */
  ghost predicate ValidServices(env: Services) {
    && (forall id, i :: 0 <= i < |env.getWorkListByRef(id)| ==> ValidItems(env.getWorkListByRef(id)[i]))
    && (forall id :: env.getWorkItem(id).Some? ==> ValidItems(env.getWorkItem(id).value))
  }

  /** One turn of the copyItemList loop: the next token is taken from the
      tokenizer and its field copied, so that the remaining tokens still lead
      to the contents `total` the whole list leads to; then hasMoreTokens. */
  method CopyNextField(st: StringTokenizer, source: ItemCollection, target: ItemCollection, ghost total: Items)
    returns (more: bool)
    requires st.Valid() && st.Remaining() != []
    requires source.Valid() && target.Valid() && source != target
    requires CopyFields(Fields(st.Remaining()), source.hash, target.hash) == total
    modifies st, target
    ensures st.Valid() && source.Valid() && target.Valid()
    ensures old(st.Remaining()) == [old(st.Remaining())[0]] + st.Remaining()
    ensures old(st.position) < st.position
    ensures more <==> st.Remaining() != []
    ensures CopyFields(Fields(st.Remaining()), source.hash, target.hash) == total
  {
    ghost var before := target.hash;
    var token := st.NextToken();
    var from, to := FieldNames(token);
    CopyOneField(from, to, source, target);
    CopyFirstField(token, st.Remaining(), source.hash, before, target.hash);
    more := st.HasMoreTokens();
  }

  /** One field of copyItemList on the target collection. */
  method CopyOneField(from: string, to: string, source: ItemCollection, target: ItemCollection)
    requires source.Valid() && target.Valid() && source != target
    modifies target
    ensures target.Valid()
    ensures target.hash == CopyField((from, to), source.hash, old(target.hash))
  {
    target.ReplaceItemValue(Some(to), ListOf(Get(source.hash, from)));
  }

  method FieldNames(token: string) returns (from: string, to: string)
    ensures from == Src(token) && to == Dst(token)
  {
    var field := Trim(token);
    from, to := field, field;
    var pos := IndexOf(field, '|');
    if pos.Some? {
      from, to := Trim(field[..pos.value]), Trim(field[pos.value + 1..]);
    }
  }

  /** copyItemList: the comma-separated fields are copied one by one from the
      source into the target, as CopyItems says. */
  method CopyItemList(items: string, source: ItemCollection, target: ItemCollection)
    requires source.Valid() && target.Valid() && source != target
    modifies target
    ensures target.Valid()
    ensures target.hash == CopyItems(items, source.hash, old(target.hash))
  {
    var st := new StringTokenizer(items, ',');
    ghost var total := CopyItems(items, source.hash, target.hash);
    var more := st.HasMoreTokens();
    while more
      invariant st.Valid() && source.Valid() && target.Valid()
      invariant source.hash == old(source.hash)
      invariant more <==> st.Remaining() != []
      invariant CopyFields(Fields(st.Remaining()), source.hash, target.hash) == total
      decreases |st.text| - st.position
    {
      more := CopyNextField(st, source, target, total);
    }
    assert st.Remaining() == [];
  }

  /** addWorkitemRef: the work item's contents become AddRef of the old ones. */
  method AddWorkitemRef(id: string, workitem: ItemCollection)
    requires workitem.Valid()
    modifies workitem
    ensures workitem.Valid()
    ensures workitem.hash == AddRef(old(workitem.hash), id)
  {
    var refs := Get(workitem.hash, LinkItem);
    if |refs| == 1 && refs[0] == Str("") {
      refs := [];
    }
    if Str(id) !in refs {
      refs := refs + [Str(id)];
      LinkItemIsKey();
      workitem.ReplaceItemValue(Some(LinkItem), ListOf(refs));
    }
  }

  /** The body of createSubprocesses for one parsed directive: a new work
      item with the listed items copied from the origin and the four kernel
      items set, as NewSubprocess says. */
  method BuildSubprocess(origin: ItemCollection, definition: Items) returns (r: Result<ItemCollection>)
    requires origin.Valid()
    ensures r.Throws? <==> NewSubprocess(origin.hash, definition).Throws?
    ensures r.Throws? ==> r.error == NewSubprocess(origin.hash, definition).error
    ensures r.Ok? ==> fresh(r.value) && r.value.Valid() && r.value.hash == NewSubprocess(origin.hash, definition).value
  {
    var sub := new ItemCollection();
    CopyItemList(GetString(definition, "items"), origin, sub);
    sub.ReplaceItemValue(Some(ModelVersionItem), Single(Str(GetString(definition, "modelversion"))));
    var processId := NewInteger(GetString(definition, "processid"));
    if processId.Throws? {
      return Throws(processId.error);
    }
    sub.ReplaceItemValue(Some(ProcessIdItem), Single(Int(processId.value)));
    var activityId := NewInteger(GetString(definition, "activityid"));
    if activityId.Throws? {
      return Throws(activityId.error);
    }
    sub.ReplaceItemValue(Some(ActivityIdItem), Single(Int(activityId.value)));
    sub.ReplaceItemValue(Some(UniqueIdRefItem), Single(Str(UniqueId(origin.hash))));
    r := Ok(sub);
  }

  /** createSubprocesses: the outcome, the origin's new contents and the work
      items handed to processWorkItem are those Create describes. */
  method CreateSubprocesses(defs: seq<Value>, origin: ItemCollection, env: Services)
    returns (o: Outcome, handedOff: seq<Items>)
    requires origin.Valid() && Null !in defs
    modifies origin
    ensures origin.Valid()
    ensures Create(defs, old(origin.hash), env) == Progress(o, origin.hash, handedOff)
  {
    handedOff := [];
    ghost var total := Create(defs, origin.hash, env);
    assert defs[0..] == defs;
    AfterNothing(total);
    for i := 0 to |defs|
      invariant origin.Valid() && Null !in defs[i..]
      invariant total == After(handedOff, Create(defs[i..], origin.hash, env))
    {
      assert defs[i..][0] == defs[i] && defs[i..][1..] == defs[i + 1..];
      if !defs[i].Str? {
        CreateStop(defs[i..], origin.hash, env);
        return Fail(ClassCastException), handedOff;
      }
      var value := defs[i].s;
      var parsed := if Trim(value) == "" then None else env.parseItemStructure(value);
      if parsed.None? {
        CreateSkip(defs[i..], origin.hash, env);
      } else {
        var created := BuildSubprocess(origin, parsed.value);
        if created.Throws? {
          CreateStop(defs[i..], origin.hash, env);
          return Fail(created.error), handedOff;
        }
        var sub := created.value;
        ghost var before := origin.hash;
        CreateStep(defs[i..], before, env);
        var processed := env.processWorkItem(sub.hash);
        ghost var next := Create(defs[i + 1..], AddRef(before, UniqueId(processed)), env);
        assert Create(defs[i..], before, env) == Progress(next.outcome, next.origin, [sub.hash] + next.handedOff);
        AfterStep(handedOff, sub.hash, next);
        handedOff := handedOff + [sub.hash];
        AddWorkitemRef(UniqueId(processed), origin);
      }
    }
    assert defs[|defs|..] == [];
    o := Pass;
  }

  /** The body of updateSubprocesses for one matching sub-process: the
      listed items copied from the origin, then the directive's activity id,
      as UpdatedSubprocess says. */
  method UpdateSubprocess(workitem: Items, definition: Items, origin: ItemCollection) returns (r: Result<Items>)
    requires origin.Valid() && ValidItems(workitem)
    ensures r == UpdatedSubprocess(workitem, origin.hash, definition)
  {
    var sub := new ItemCollection.FromMap(workitem);
    CopyItemList(GetString(definition, "items"), origin, sub);
    var activityId := NewInteger(GetString(definition, "activityid"));
    if activityId.Throws? {
      return Throws(activityId.error);
    }
    sub.ReplaceItemValue(Some(ActivityIdItem), Single(Int(activityId.value)));
    r := Ok(sub.hash);
  }

  /** The inner loop of updateSubprocesses: each matching sub-process is
      updated and handed on, as UpdateEach says. */
  method UpdateMatching(subs: seq<Items>, definition: Items, origin: ItemCollection, env: Services)
    returns (o: Outcome, handedOff: seq<Items>)
    requires origin.Valid() && forall i :: 0 <= i < |subs| ==> ValidItems(subs[i])
    ensures UpdateEach(subs, definition, origin.hash, env) == Handoff(o, handedOff)
  {
    handedOff := [];
    ghost var total := UpdateEach(subs, definition, origin.hash, env);
    assert subs[0..] == subs;
    BehindNothing(total);
    for i := 0 to |subs|
      invariant total == Behind(handedOff, UpdateEach(subs[i..], definition, origin.hash, env))
    {
      assert subs[i..][0] == subs[i] && subs[i..][1..] == subs[i + 1..];
      UpdateEachStep(subs[i..], definition, origin.hash, env);
      var matched := Matches(env, definition, subs[i]);
      if matched.Throws? {
        return Fail(matched.error), handedOff;
      }
      if matched.value {
        var updated := UpdateSubprocess(subs[i], definition, origin);
        if updated.Throws? {
          return Fail(updated.error), handedOff;
        }
        var _ := env.processWorkItem(updated.value);
        BehindStep(handedOff, [updated.value], UpdateEach(subs[i + 1..], definition, origin.hash, env));
        handedOff := handedOff + [updated.value];
      }
    }
    assert subs[|subs|..] == [];
    o := Pass;
  }

  /** updateSubprocesses: the outcome and the work items handed to
      processWorkItem are those Update describes; the origin is not written. */
  method UpdateSubprocesses(defs: seq<Value>, origin: ItemCollection, env: Services)
    returns (o: Outcome, handedOff: seq<Items>)
    requires origin.Valid() && Null !in defs && ValidServices(env)
    ensures Update(defs, origin.hash, env) == Handoff(o, handedOff)
  {
    handedOff := [];
    ghost var total := Update(defs, origin.hash, env);
    assert defs[0..] == defs;
    BehindNothing(total);
    for i := 0 to |defs|
      invariant Null !in defs[i..]
      invariant total == Behind(handedOff, Update(defs[i..], origin.hash, env))
    {
      assert defs[i..][0] == defs[i] && defs[i..][1..] == defs[i + 1..];
      if !defs[i].Str? {
        return Fail(ClassCastException), handedOff;
      }
      UpdateStep(defs[i..], origin.hash, env);
      var value := defs[i].s;
      var parsed := if Trim(value) == "" then None else env.parseItemStructure(value);
      if parsed.Some? {
        var subs := env.getWorkListByRef(UniqueId(origin.hash));
        var outcome, updated := UpdateMatching(subs, parsed.value, origin, env);
        if outcome.Fail? {
          return outcome, handedOff + updated;
        }
        BehindStep(handedOff, updated, Update(defs[i + 1..], origin.hash, env));
        handedOff := handedOff + updated;
      }
    }
    assert defs[|defs|..] == [];
    o := Pass;
  }

  /** The body of updateOrigin for one matching origin: the directive's
      activity id, then the listed items copied from the sub-process, as
      UpdatedOrigin says. */
  method UpdateOriginItem(workitem: Items, definition: Items, sub: ItemCollection) returns (r: Result<Items>)
    requires sub.Valid() && ValidItems(workitem)
    ensures r == UpdatedOrigin(workitem, sub.hash, definition)
  {
    var originWorkitem := new ItemCollection.FromMap(workitem);
    var activityId := NewInteger(GetString(definition, "activityid"));
    if activityId.Throws? {
      return Throws(activityId.error);
    }
    originWorkitem.ReplaceItemValue(Some(ActivityIdItem), Single(Int(activityId.value)));
    CopyItemList(GetString(definition, "items"), sub, originWorkitem);
    r := Ok(originWorkitem.hash);
  }

  /** updateOrigin: the outcome and the work items handed to processWorkItem
      are those JoinOrigin describes; the sub-process is not written. */
  method UpdateOrigin(definition: string, sub: ItemCollection, env: Services)
    returns (o: Outcome, handedOff: seq<Items>)
    requires sub.Valid() && ValidServices(env)
    ensures JoinOrigin(definition, sub.hash, env) == Handoff(o, handedOff)
  {
    handedOff := [];
    if definition == "" {
      return Pass, handedOff;
    }
    var parsed := env.parseItemStructure(definition);
    if parsed.None? {
      return Fail(NullPointerException), handedOff;
    }
    var processData := parsed.value;
    var refs := Get(sub.hash, UniqueIdRefItem);
    ghost var total := OriginEach(refs, processData, sub.hash, env);
    assert refs[0..] == refs;
    BehindNothing(total);
    for i := 0 to |refs|
      invariant Null !in refs[i..]
      invariant total == Behind(handedOff, OriginEach(refs[i..], processData, sub.hash, env))
    {
      assert refs[i..][0] == refs[i] && refs[i..][1..] == refs[i + 1..];
      if !refs[i].Str? {
        return Fail(ClassCastException), handedOff;
      }
      OriginEachStep(refs[i..], processData, sub.hash, env);
      var found := env.getWorkItem(refs[i].s);
      var matched := if found.Some? then Matches(env, processData, found.value) else Ok(false);
      if matched.Throws? {
        return Fail(matched.error), handedOff;
      }
      if matched.value {
        var updated := UpdateOriginItem(found.value, processData, sub);
        if updated.Throws? {
          return Fail(updated.error), handedOff;
        }
        var _ := env.processWorkItem(updated.value);
        BehindStep(handedOff, [updated.value], OriginEach(refs[i + 1..], processData, sub.hash, env));
        handedOff := handedOff + [updated.value];
      }
    }
    assert refs[|refs|..] == [];
    o := Pass;
  }

  /** The create directive of run, as CreateDirective says. */
  method RunCreate(evaluated: Items, context: ItemCollection, env: Services)
    returns (o: Outcome, handedOff: seq<Items>)
    requires context.Valid() && ValidItems(evaluated)
    modifies context
    ensures context.Valid()
    ensures CreateDirective(evaluated, old(context.hash), env) == Progress(o, context.hash, handedOff)
  {
    o, handedOff := Pass, [];
    if Has(evaluated, SubprocessCreate) {
      o, handedOff := CreateSubprocesses(Get(evaluated, SubprocessCreate), context, env);
    }
  }

  /** The update and origin-update directives of run, as LaterDirectives says. */
  method RunLater(evaluated: Items, context: ItemCollection, env: Services)
    returns (o: Outcome, handedOff: seq<Items>)
    requires context.Valid() && ValidItems(evaluated) && ValidServices(env)
    ensures LaterDirectives(evaluated, context.hash, env) == Handoff(o, handedOff)
  {
    o, handedOff := Pass, [];
    if Has(evaluated, SubprocessUpdate) {
      o, handedOff := UpdateSubprocesses(Get(evaluated, SubprocessUpdate), context, env);
      if o.Fail? {
        return;
      }
    }
    if Has(evaluated, OriginUpdate) {
      var joined;
      o, joined := UpdateOrigin(GetString(evaluated, OriginUpdate), context, env);
      handedOff := handedOff + joined;
    }
  }

  /** run: the three directives of the evaluated event result in order, as
      RunSteps says; PLUGIN_OK when none of them raises. */
  method Run(context: ItemCollection, evaluated: Items, env: Services)
    returns (r: Result<PluginStatus>, handedOff: seq<Items>)
    requires context.Valid() && ValidItems(evaluated) && ValidServices(env)
    modifies context
    ensures context.Valid()
    ensures var p := RunSteps(evaluated, old(context.hash), env);
      && context.hash == p.origin
      && handedOff == p.handedOff
      && (p.outcome.Pass? ==> r == Ok(PluginOk))
      && (p.outcome.Fail? ==> r == Throws(p.outcome.error))
  {
    var o, later: Outcome, rest: seq<Items>;
    o, handedOff := RunCreate(evaluated, context, env);
    if o.Fail? {
      return Throws(o.error), handedOff;
    }
    later, rest := RunLater(evaluated, context, env);
    handedOff := handedOff + rest;
    if later.Fail? {
      return Throws(later.error), handedOff;
    }
    r := Ok(PluginOk);
  }
}

=== FILE: text.dfy ===
/** The parts of java.lang.String and java.util.StringTokenizer that the
    workflow code relies on: lower-casing, trimming, character search and
    splitting at a delimiter. */
module Text {

  import opened Wrappers

  // ---------------------------------------------------------------------
  // Lower case
  // ---------------------------------------------------------------------

  /** Character.toLowerCase on the Basic Latin and Latin-1 upper-case letters;
      every other character is left as it is. */
  function LowerChar(c: char): char {
    if 'A' <= c <= 'Z' || ('\U{C0}' <= c <= '\U{DE}' && c != '\U{D7}') then (c as int + 32) as char else c
  }

  /** A string that lower-casing leaves unchanged. */
  predicate IsLower(s: string) {
    forall i :: 0 <= i < |s| ==> LowerChar(s[i]) == s[i]
  }

  /** String.toLowerCase: every character lower-cased, the length kept. */
  function Lower(s: string): (r: string)
    ensures |r| == |s| && IsLower(r)
    ensures forall i :: 0 <= i < |s| ==> r[i] == LowerChar(s[i])
  {
    seq(|s|, i requires 0 <= i < |s| => LowerChar(s[i]))
  }

  /** Lower-casing a lower-case name gives the name back, so lower-casing twice
      is lower-casing once. */
  lemma LowerOfLower(s: string)
    requires IsLower(s)
    ensures Lower(s) == s
  {
  }

  lemma LowerIdempotent(s: string)
    ensures Lower(Lower(s)) == Lower(s)
  {
    LowerOfLower(Lower(s));
  }

  // ---------------------------------------------------------------------
  // Trimming
  // ---------------------------------------------------------------------

  /** String.trim removes every character at or below U+0020 from both ends. */
  predicate IsTrimmed(c: char) {
    c <= ' '
  }

  predicate IsBlank(s: string) {
    forall i :: 0 <= i < |s| ==> IsTrimmed(s[i])
  }

  /** r is what s starts with. */
  predicate IsPrefix(r: string, s: string) {
    |r| <= |s| && r == s[..|r|]
  }

  /** r is what s ends with. */
  predicate IsSuffix(r: string, s: string) {
    |r| <= |s| && r == s[|s| - |r|..]
  }

  /** The leading trimmed characters of s removed. */
  function TrimStart(s: string): (r: string)
    ensures IsSuffix(r, s)
    ensures forall i :: 0 <= i < |s| - |r| ==> IsTrimmed(s[i])
    ensures r == [] || !IsTrimmed(r[0])
  {
    if s != [] && IsTrimmed(s[0]) then
      var r := TrimStart(s[1..]);
      SuffixOfSuffix(s, s[1..], r);
      r
    else
      s
  }

  /** The trailing trimmed characters of s removed. */
  function TrimEnd(s: string): (r: string)
    ensures IsPrefix(r, s)
    ensures forall i :: |r| <= i < |s| ==> IsTrimmed(s[i])
    ensures r == [] || !IsTrimmed(r[|r| - 1])
  {
    if s != [] && IsTrimmed(s[|s| - 1]) then
      var r := TrimEnd(s[..|s| - 1]);
      assert forall i :: 0 <= i < |r| ==> r[i] == s[i];
      r
    else
      s
  }

  /** String.trim: the longest infix of s that neither starts nor ends with a
      character at or below U+0020; it is empty exactly when s is blank. */
  function Trim(s: string): (r: string)
    ensures r == [] || (!IsTrimmed(r[0]) && !IsTrimmed(r[|r| - 1]))
    ensures r == [] <==> IsBlank(s)
  {
    var a := TrimStart(s);
    var r := TrimEnd(a);
    assert r == [] ==> a == [];
    r
  }

  /** Text that neither starts nor ends with a trimmed character is its own trim. */
  lemma TrimUntrimmed(s: string)
    requires s == [] || (!IsTrimmed(s[0]) && !IsTrimmed(s[|s| - 1]))
    ensures Trim(s) == s
  {
  }

  // ---------------------------------------------------------------------
  // Searching
  // ---------------------------------------------------------------------

  /** String.indexOf(char): the first position of c, None standing for -1. */
  function IndexOf(s: string, c: char): (r: Option<nat>)
    ensures r.None? <==> c !in s
    ensures r.Some? ==> r.value < |s| && s[r.value] == c && c !in s[..r.value]
  {
    if s == [] then None
    else if s[0] == c then Some(0)
    else match IndexOf(s[1..], c)
      case None => None
      case Some(k) => assert s[..k + 1] == [s[0]] + s[1..][..k]; Some(k + 1)
  }

  /** A suffix of a suffix of s is a suffix of s. */
  lemma SuffixOfSuffix(s: string, a: string, r: string)
    requires IsSuffix(a, s) && IsSuffix(r, a)
    ensures IsSuffix(r, s)
  {
    forall i | 0 <= i < |r|
      ensures r[i] == s[|s| - |r| + i]
    {
      assert r[i] == a[|a| - |r| + i];
    }
  }

  /** String.lastIndexOf(char): the last position of c, None standing for -1. */
  function LastIndexOf(s: string, c: char): (r: Option<nat>)
    ensures r.None? ==> forall k :: 0 <= k < |s| ==> s[k] != c
    ensures r.Some? ==> r.value < |s| && s[r.value] == c
    ensures r.Some? ==> forall k :: r.value < k < |s| ==> s[k] != c
  {
    if s == [] then None
    else if s[|s| - 1] == c then Some(|s| - 1)
    else LastIndexOf(s[..|s| - 1], c)
  }

  /** s.substring(s.lastIndexOf(c) + 1): the longest suffix of s without c,
      s itself when c does not occur in it. */
  function AfterLast(s: string, c: char): (r: string)
    ensures c !in r
    ensures IsSuffix(r, s)
    ensures c in s ==> |r| < |s| && s[|s| - |r| - 1] == c
    ensures c !in s ==> r == s
  {
    match LastIndexOf(s, c)
    case None => s
    case Some(i) => s[i + 1..]
  }

  // ---------------------------------------------------------------------
  // Tokens
  // ---------------------------------------------------------------------

  /** Length of the leading run of characters other than d. */
  function RunLength(s: string, d: char): (n: nat)
    ensures n <= |s|
    ensures forall k :: 0 <= k < n ==> s[k] != d
    ensures n < |s| ==> s[n] == d
  {
    if s == [] || s[0] == d then 0 else 1 + RunLength(s[1..], d)
  }

  /** The tokens java.util.StringTokenizer yields for the text s and the single
      delimiter d: the maximal runs of characters other than d, in order.
      Leading, trailing and repeated delimiters produce no empty token. */
  function Tokens(s: string, d: char): (r: seq<string>)
    ensures forall i :: 0 <= i < |r| ==> r[i] != [] && d !in r[i]
    decreases |s|
  {
    if s == [] then []
    else if s[0] == d then Tokens(s[1..], d)
    else
      var n := RunLength(s, d);
      [s[..n]] + Tokens(s[n..], d)
  }

  /** The tokens joined again with one delimiter between neighbours. */
  function Join(ts: seq<string>, d: char): string {
    if ts == [] then []
    else if |ts| == 1 then ts[0]
    else ts[0] + [d] + Join(ts[1..], d)
  }

  /** The characters of s other than d, in order. */
  function Without(s: string, d: char): string {
    if s == [] then []
    else if s[0] == d then Without(s[1..], d)
    else [s[0]] + Without(s[1..], d)
  }

  /** All tokens written one after the other. */
  function Concat(ts: seq<string>): string {
    if ts == [] then [] else ts[0] + Concat(ts[1..])
  }

  /** Splitting the join of non-empty, delimiter-free tokens gives back those
      tokens: Tokens is the inverse of Join. */
  lemma {:induction false} TokensOfJoin(ts: seq<string>, d: char)
    requires forall i :: 0 <= i < |ts| ==> ts[i] != [] && d !in ts[i]
    ensures Tokens(Join(ts, d), d) == ts
  {
    if ts == [] {
    } else if |ts| == 1 {
      var t := ts[0];
      var n := RunLength(t, d);
      assert n == |t|;
      assert t[..n] == t && t[n..] == [];
    } else {
      var t := ts[0];
      var rest := Join(ts[1..], d);
      var s := t + [d] + rest;
      assert s[0] == t[0];
      var n := RunLength(s, d);
      assert s[|t|] == d;
      assert n == |t|;
      assert s[..n] == t;
      assert s[n..][1..] == rest;
      TokensOfJoin(ts[1..], d);
    }
  }

  lemma {:induction false} WithoutAppend(a: string, b: string, d: char)
    ensures Without(a + b, d) == Without(a, d) + Without(b, d)
  {
    if a != [] {
      assert (a + b)[0] == a[0];
      assert (a + b)[1..] == a[1..] + b;
      WithoutAppend(a[1..], b, d);
      if a[0] == d {
        assert Without(a + b, d) == Without(a[1..] + b, d);
      } else {
        assert Without(a + b, d) == [a[0]] + Without(a[1..] + b, d);
      }
    } else {
      assert a + b == b;
    }
  }

  lemma {:induction false} WithoutNoDelimiter(s: string, d: char)
    requires d !in s
    ensures Without(s, d) == s
  {
    if s != [] {
      WithoutNoDelimiter(s[1..], d);
    }
  }

  /** The tokens hold exactly the characters of the text other than the
      delimiter, in their original order: nothing is trimmed or reordered. */
  lemma {:induction false} ConcatTokens(s: string, d: char)
    ensures Concat(Tokens(s, d)) == Without(s, d)
    decreases |s|
  {
    if s == [] {
    } else if s[0] == d {
      ConcatTokens(s[1..], d);
    } else {
      var n := RunLength(s, d);
      assert s == s[..n] + s[n..];
      WithoutAppend(s[..n], s[n..], d);
      WithoutNoDelimiter(s[..n], d);
      ConcatTokens(s[n..], d);
      assert Tokens(s, d)[1..] == Tokens(s[n..], d);
    }
  }

  /** A text made of delimiters only has no token at all. */
  lemma {:induction false} TokensOfDelimiters(s: string, d: char)
    requires forall i :: 0 <= i < |s| ==> s[i] == d
    ensures Tokens(s, d) == []
  {
    if s != [] {
      TokensOfDelimiters(s[1..], d);
    }
  }

  /** java.util.StringTokenizer over one delimiter character. */
  /** RunLength read in place: the length of the run of characters other
      than d that starts at index i of s. */
  function RunFrom(s: string, i: nat, d: char): (n: nat)
    requires i <= |s|
    ensures i + n <= |s|
    ensures forall k :: i <= k < i + n ==> s[k] != d
    ensures i + n < |s| ==> s[i + n] == d
    decreases |s| - i
  {
    if i == |s| || s[i] == d then 0 else 1 + RunFrom(s, i + 1, d)
  }

  /** Tokens read in place: the tokens of the text from index i on. */
  ghost function TokensFrom(s: string, i: nat, d: char): seq<string>
    requires i <= |s|
    decreases |s| - i
  {
    if i == |s| then []
    else if s[i] == d then TokensFrom(s, i + 1, d)
    else
      var n := RunFrom(s, i, d);
      [s[i..i + n]] + TokensFrom(s, i + n, d)
  }

  lemma {:induction false} RunFromSuffix(s: string, i: nat, d: char)
    requires i <= |s|
    ensures RunFrom(s, i, d) == RunLength(s[i..], d)
    decreases |s| - i
  {
    if i < |s| && s[i] != d {
      RunFromSuffix(s, i + 1, d);
      assert s[i..][1..] == s[i + 1..];
    }
  }

  /** Reading in place from index i gives the tokens of the suffix from i. */
  lemma {:induction false} TokensFromSuffix(s: string, i: nat, d: char)
    requires i <= |s|
    ensures TokensFrom(s, i, d) == Tokens(s[i..], d)
    decreases |s| - i, 1
  {
    if i == |s| {
    } else if s[i] == d {
      TokensFromSuffix(s, i + 1, d);
      TokensAtDelimiter(s, i, d);
    } else {
      TokensFromToken(s, i, d);
    }
  }

  /** TokensFromSuffix at a position where a token starts. */
  lemma {:induction false} TokensFromToken(s: string, i: nat, d: char)
    requires i < |s| && s[i] != d
    ensures TokensFrom(s, i, d) == Tokens(s[i..], d)
    decreases |s| - i, 0
  {
    var n := RunFrom(s, i, d);
    assert TokensFrom(s, i, d) == [s[i..i + n]] + TokensFrom(s, i + n, d);
    TokensFromSuffix(s, i + n, d);
    TokensAtToken(s, i, d);
  }

  /** A delimiter at the front of the suffix from i yields no token. */
  lemma TokensAtDelimiter(s: string, i: nat, d: char)
    requires i < |s| && s[i] == d
    ensures Tokens(s[i..], d) == Tokens(s[i + 1..], d)
  {
    assert s[i..][1..] == s[i + 1..];
  }

  /** A token at the front of the suffix from i runs up to the next delimiter. */
  lemma TokensAtToken(s: string, i: nat, d: char)
    requires i < |s| && s[i] != d
    ensures var n := RunFrom(s, i, d);
      Tokens(s[i..], d) == [s[i..i + n]] + Tokens(s[i + n..], d)
  {
    var n := RunFrom(s, i, d);
    RunFromSuffix(s, i, d);
    assert s[i..][..n] == s[i..i + n];
    assert s[i..][n..] == s[i + n..];
  }

  class StringTokenizer {
    const text: string
    const delim: char
    var position: nat

    ghost predicate Valid()
      reads this
    {
      position <= |text|
    }

    /** The tokens not yet returned by NextToken. */
    ghost function Remaining(): seq<string>
      reads this
      requires Valid()
    {
      TokensFrom(text, position, delim)
    }

    constructor (text: string, delim: char)
      ensures Valid() && this.text == text && this.delim == delim
      ensures Remaining() == Tokens(text, delim)
    {
      this.text := text;
      this.delim := delim;
      position := 0;
      new;
      TokensFromSuffix(text, 0, delim);
      assert text[0..] == text;
    }

    /** The first position at or after the current one that is not a delimiter. */
    method SkipDelimiters() returns (j: nat)
      requires Valid()
      ensures position <= j <= |text| && (j < |text| ==> text[j] != delim)
      ensures TokensFrom(text, j, delim) == Remaining()
    {
      j := position;
      while j < |text| && text[j] == delim
        invariant position <= j <= |text|
        invariant TokensFrom(text, j, delim) == Remaining()
      {
        j := j + 1;
      }
    }

    method HasMoreTokens() returns (b: bool)
      requires Valid()
      ensures b <==> Remaining() != []
    {
      var j := SkipDelimiters();
      b := j < |text|;
    }

    method NextToken() returns (t: string)
      requires Valid() && Remaining() != []
      modifies this
      ensures Valid()
      ensures old(Remaining()) == [t] + Remaining()
      ensures old(position) < position
    {
      var start := SkipDelimiters();
      var j := start;
      while j < |text| && text[j] != delim
        invariant start <= j <= |text|
        invariant RunFrom(text, start, delim) == (j - start) + RunFrom(text, j, delim)
      {
        j := j + 1;
      }
      t := text[start..j];
      position := j;
    }
  }
}

=== FILE: values.dfy ===
/** The objects an item of an ItemCollection can hold, and the normalisation
    every write applies to them. */
module Values {

  import opened Wrappers
  import opened Numbers

  /** One attachment in the `$file` item: its content type and its bytes. */
  datatype FileEntry = FileEntry(contentType: string, data: seq<bv8>)

  /** An object stored in, or offered to, an item. */
  datatype Value =
    | Null                                      // Java's null
    | Str(s: string)                            // java.lang.String
    | Int(i: Int32)                             // java.lang.Integer
    | Long(l: Int64)                            // java.lang.Long
    | Bool(b: bool)                             // java.lang.Boolean
    | Date(time: int)                           // java.util.Date, milliseconds since the epoch
    | FileMap(files: map<string, FileEntry>)    // the HashMap stored under `$file`
    | Unserializable(rendering: string)         // any object that is not java.io.Serializable
                                                // (an ItemCollection among them), with its toString()

  /** The value argument of replaceItemValue and appendItemValue: one object,
      possibly null, or a java.util.List whose elements may be null. */
  datatype Input = Single(v: Value) | ListOf(vs: seq<Value>)

  /** `instanceof java.io.Serializable` of a non-null object. */
  predicate IsSerializable(v: Value) {
    !v.Unserializable?
  }

  /** Object.toString of a stored value. A Date renders as a time-zone dependent
      text and a HashMap with the identity hashes of its byte arrays, so for
      those two the model keeps only what the typed readers depend on: the text
      is neither a number nor "true". */
  function ToText(v: Value): string {
    match v
    case Null => "null"
    case Str(s) => s
    case Int(i) => IntToString(i)
    case Long(l) => IntToString(l)
    case Bool(b) => if b then "true" else "false"
    case Date(t) => "Date(" + IntToString(t) + ")"
    case FileMap(_) => "{...}"
    case Unserializable(text) => text
  }

  /** A list with its null elements removed (List.removeAll of null). */
  function NonNull(vs: seq<Value>): (r: seq<Value>)
    ensures Null !in r
    ensures |r| <= |vs|
    ensures forall x :: x in vs && x != Null ==> x in r
    ensures forall x :: x in r ==> x in vs
  {
    if vs == [] then []
    else if vs[0] == Null then NonNull(vs[1..])
    else [vs[0]] + NonNull(vs[1..])
  }

  /** Removing nulls from a list without any changes nothing. */
  lemma {:induction false} NonNullOfNullFree(vs: seq<Value>)
    requires Null !in vs
    ensures NonNull(vs) == vs
  {
    if vs != [] {
      NonNullOfNullFree(vs[1..]);
    }
  }

  /** Removing nulls keeps the order: it distributes over concatenation. */
  lemma {:induction false} NonNullAppend(a: seq<Value>, b: seq<Value>)
    ensures NonNull(a + b) == NonNull(a) + NonNull(b)
  {
    if a == [] {
      assert a + b == b;
    } else {
      assert (a + b)[0] == a[0];
      assert (a + b)[1..] == a[1..] + b;
      NonNullAppend(a[1..], b);
    }
  }

  /** The list a write stores, None when the write removes the item instead:
      null and a non-serialisable object remove the item, any other single
      object becomes a one-element list, and a list loses its null elements. */
  function Normalise(input: Input): (r: Option<seq<Value>>)
    ensures r.None? <==> input.Single? && (input.v == Null || !IsSerializable(input.v))
    ensures r.Some? ==> Null !in r.value
    ensures input.Single? && r.Some? ==> r.value == [input.v]
    ensures input.ListOf? ==> r == Some(NonNull(input.vs))
    ensures input.ListOf? && Null !in input.vs ==> r == Some(input.vs)
  {
    match input
    case Single(v) => if v == Null || !IsSerializable(v) then None else Some([v])
    case ListOf(vs) => NonNullIdentity(vs); Some(NonNull(vs))
  }

  /** NonNullOfNullFree for every argument, as a fact usable in an expression. */
  lemma NonNullIdentity(vs: seq<Value>)
    ensures Null !in vs ==> NonNull(vs) == vs
  {
    if Null !in vs {
      NonNullOfNullFree(vs);
    }
  }
}

=== FILE: wrappers.dfy ===
/** Java's `null`, the unchecked exceptions the modelled code can raise itself,
    and the results that carry them. */
module Wrappers {

  /** A value that may be Java's `null`. */
  datatype Option<+T> = None | Some(value: T)

  /** The runtime exceptions raised by the modelled code itself (not by the
      services it calls). */
  datatype JavaError =
    | ClassCastException
    | NumberFormatException
    | NullPointerException
    | PatternSyntaxException

  /** The value of an expression, or the exception its evaluation throws. */
  datatype Result<+T> = Ok(value: T) | Throws(error: JavaError) {
    predicate IsFailure() { Throws? }

    function PropagateFailure<U>(): Result<U>
      requires Throws?
    {
      Throws(error)
    }

    function Extract(): T
      requires Ok?
    {
      value
    }
  }

  /** A statement that completes normally or throws. */
  datatype Outcome = Pass | Fail(error: JavaError)
}
